=== FILE: README.md ===
# DocFind-India booking and search core, in Dafny

A Dafny model of the core of DocFind-India, a doctor directory with appointment booking. Several parts are modelled:

- **The appointment ledger.** The backend creates appointments, lists them per doctor, answers the booked-slot query and updates statuses. The appointment collection is a `seq<Appointment>`, and every operation is a pure function returning a result and the next sequence.
- **The doctor search.** This covers the filter built from the request, its meaning for one doctor, the sort rule, pagination, lookup by id, and the speciality, location and language facet lists. The doctor collection is a `seq<Doctor>`.
- **The records.** Both Mongoose schemas are modelled with their enumerations, bounds, defaults and trimming setters. The express-validator chain checks a booking request before the controller runs; both are modelled too.
- **The search page's client state.** This covers the sidebar handlers, the price radio group, the active-filter test, sort toggling, and the query object the page sends.
- **The booking form.** This covers the half-hour slot generator, the default consultation type, the change handler, and the slot and submit button conditions.

Modules, one per file:

| module | file | models |
|---|---|---|
| `Wrappers` | wrappers.dfy | `Option`, `Result` |
| `Text` | text.dfy | JavaScript `trim` (the `\s` class), ASCII `toLowerCase`, case-insensitive substring match, `split`/`join` on one character, decimal digits, `padStart`, lexicographic order |
| `Calendar` | calendar.dfy | instants in milliseconds, local days under a fixed time-zone offset, the `setHours` day window |
| `Sorting` | sorting.dfy | sort keys, insertion sort by key, reversal, duplicate-free sorted listings |
| `Models` | models.dfy | `Doctor`, `Appointment`, their enums, and the schema step that builds a stored record |
| `Ledger` | ledger.dfy | `createAppointment` after validation, `getBookedSlots`, `getAppointmentsByDoctor`, `updateAppointmentStatus` |
| `Directory` | directory.dfy | `getDoctors`, `getDoctorById`, `getSpecialities`, `getLocations`, `getLanguages` |
| `Validation` | validation.dfy | the `appointmentValidation` chain and the `POST /api/appointments` route |
| `Filters` | filters.dfy | `FilterSidebar` handlers and `SearchPage` state and query building |
| `BookingForm` | booking_form.dfy | `BookingModal` helpers |

Modelling choices:

- **Dates.** A date is an `Instant`: milliseconds since the epoch, as a JavaScript `Date` holds it. The booking conflict check compares instants exactly, as the controller's `findOne` does. The server's time zone is a fixed offset parameter. A date in a query string is read by a `parseDate` parameter that answers `None` where `new Date` gives an invalid date.
- **Library calls.** `isEmail`, `isISO8601` and the date parser are fields of a `Library` parameter.
- **New ids.** The id of a new appointment is a parameter, `newId`.
- **Object ids.** A request string that is not 24 hexadecimal digits makes Mongoose's cast fail. The controller's `catch` then answers with its 500 error, modelled as `StoreFailure`. A valid id is stored in lower case. The route's `isMongoId` check is validator's from version 13 on: it also admits `0x` or `0h` followed by 22 hexadecimal digits. Such an id passes validation and then fails the cast, so the booking answers with the 500 error.
- **`Number()`.** The price bounds go through `Number()`. A string of decimal digits gives its value; anything else gives `NaN`. Mongoose's number cast refuses a `NaN` bound, so the query fails and the controller's `catch` answers with its 500 error.

Where the code's behaviour is surprising, it is followed as written:

- **Free-text search.** The `search` clause is written into the same `$or` key as the consultation-type clause, so it replaces the type clause (doctorController.js:34-39, 52-58). It does not replace the speciality and location filters, which stay conjoined.
- **Malformed ids.** A malformed id fails the store query with a 500 error, not a not-found answer.
- **Day window.** The controller's day window ends with `$lt` on the last millisecond, not at the end of the day (see Findings). The day queries take the window as a parameter `w`. `AsWritten` is the controller's window; `WholeDay` is every millisecond of the local day. Their contracts hold for both, and for `AsWritten` they name the millisecond it leaves out.
- **Unreadable dates.** A date query parameter that `new Date` cannot read fails Mongoose's date cast, and the query answers with its 500 error.
- **Page below 1.** A page below 1 gives a negative `skip`, which MongoDB refuses. The model reports it as `StoreFailure`.
- **Price bounds that are not numbers.** They fail the search with the same 500 error; they do not merely match nothing.

## Model

| member | source | states |
|---|---|---|
| Ledger.SlotHeldScan | backend/controllers/appointmentController.js:39-47 | the conflict query answers yes exactly when some pending or confirmed appointment has the same doctor, instant and time |
| Ledger.Book | backend/controllers/appointmentController.js:20-64 | a booking succeeds exactly when every check passes: the id is an object id of a stored doctor who offers the requested type, the slot is free, and the schema accepts the name, e-mail, phone, time and type. Every failure leaves the ledger unchanged. A malformed doctor id is a store failure, and a store failure comes only from a malformed id or fields the schema rejects. An unknown doctor is not found, exactly when no stored doctor has the id. A doctor offering only the other type is refused with a message naming its type, exactly when the type check fails. A held slot is a conflict, exactly when some active appointment holds it. A success appends exactly one appointment: pending, with the fresh id, the doctor's canonical id, the requested instant, time and type, the name, phone and notes trimmed, the e-mail normalised, well formed, in a slot that was free |
| Ledger.BookSuccess | backend/controllers/appointmentController.js:54-64 | a successful booking appends one pending appointment of a single type at the requested instant with the name and notes trimmed |
| Ledger.BothTypesBookable | backend/controllers/appointmentController.js:31-64 | a doctor offering both types takes an online and an offline booking alike, for a free slot and fields the schema accepts |
| Ledger.BlankPhoneNotBooked | backend/models/Appointment.js:20-24 | a phone that trims to nothing fails the schema, so the booking fails |
| Ledger.NewInputAccepted | backend/models/Appointment.js:3-49 | the schema accepts the record a booking builds exactly when the request's name, e-mail and phone do not trim to nothing, the time is given, and the type is `online` or `offline` |
| Ledger.BookedDoctor | backend/controllers/appointmentController.js:22-37 | a successful booking names a valid id of a stored doctor that accepts the requested type |
| Ledger.NoDoubleBooking | backend/controllers/appointmentController.js:39-64 | right after a successful booking, any request for the same doctor, instant and time fails |
| Ledger.RepeatedBookingConflicts | backend/controllers/appointmentController.js:39-52 | repeating a successful booking verbatim fails with the slot-taken conflict |
| Ledger.InactiveAppointmentsNeverBlock | backend/controllers/appointmentController.js:40-45 | cancelled and completed appointments never hold a slot |
| Ledger.BookPreservesNoDoubleBooked | backend/controllers/appointmentController.js:39-64 | sequential bookings keep the invariant that no two active appointments hold the same slot |
| Ledger.BookPreservesUniqueIds | backend/controllers/appointmentController.js:54-64 | given a fresh id, bookings keep appointment ids unique |
| Ledger.OccupiedTimes | backend/controllers/appointmentController.js:140-149 | each time label appears as often as the active appointments of the doctor with that label in window `w` of the day; a label appears exactly when such an appointment exists |
| Ledger.BookedSlots | backend/controllers/appointmentController.js:127-149 | an empty date is refused, and only an empty date is. A malformed id, or a date that cannot be read, is a store failure, and only these are. Otherwise the answer has one entry per pending or confirmed appointment of the doctor on that local day, holding its time, and nothing else; with the controller's window, an appointment on the day's last millisecond is left out |
| Ledger.BookedSlotShowsUp | backend/controllers/appointmentController.js:139-149 | after a successful booking its time is among the booked slots of any date on the same local day; with the controller's window, unless the booking is on the day's last millisecond |
| Ledger.SlotListed | backend/controllers/appointmentController.js:140-149 | an active appointment of the doctor on the queried local day, inside the window, is among the booked slots |
| Ledger.LastMillisecondBookingHidden | backend/controllers/appointmentController.js:142-145 | with the controller's window, a booking on the last millisecond of its day is missing from that day's booked slots; with the whole-day window it is listed |
| Ledger.SelectListed | backend/controllers/appointmentController.js:92-106 | the selection holds each appointment of the doctor, in window `w` of the day and with the status when those are given, as often as the ledger does, and nothing else |
| Ledger.ListByDoctor | backend/controllers/appointmentController.js:87-108 | a malformed id, or a given date that cannot be read, is a store failure, and only these are. Otherwise the answer is a permutation of the doctor's appointments, narrowed to window `w` of the day and to the exact status when given, in ascending (date, time) order |
| Ledger.ListedBelongToDoctor | backend/controllers/appointmentController.js:92-104 | every listed appointment is stored, belongs to the doctor, has the requested status, and lies on the requested local day |
| Ledger.IndexOfId | backend/controllers/appointmentController.js:181-185 | the match is the first appointment with the id, and there is none exactly when no appointment has it |
| Ledger.UpdateStatus | backend/controllers/appointmentController.js:168-192 | an unknown status is refused before anything else; a malformed id is a store failure; an unknown id is not found, exactly when no appointment has it; a success changes only the status of the one matched appointment, to the requested status, and keeps the ledger's length |
| Ledger.AnyStatusChangeAccepted | backend/controllers/appointmentController.js:173-185 | any of the four statuses can be set on any stored appointment, whatever its current status |
| Ledger.ReactivationCanDoubleBook | backend/controllers/appointmentController.js:173-185 | there is a ledger without double bookings in which setting a cancelled appointment back to pending creates one |
| Calendar.StartOfDay | backend/controllers/appointmentController.js:97 | the result is the first millisecond of the local day of the argument |
| Calendar.EndOfDay | backend/controllers/appointmentController.js:98 | the result is the last millisecond of the local day of the argument |
| Calendar.DayWindowIsLocalDay | backend/controllers/appointmentController.js:94-100 | the inclusive day window holds exactly the instants of the same local day |
| Calendar.WindowIsLocalDay | backend/controllers/appointmentController.js:94-100 | either window holds exactly the instants of the queried local day, the controller's without the last millisecond |
| Calendar.AsWrittenWindowMissesLastMillisecond | backend/controllers/appointmentController.js:142-145 | the window as written leaves out the last millisecond of the queried day |
| Calendar.AsWrittenWindowOtherwiseAgrees | backend/controllers/appointmentController.js:142-145 | apart from that millisecond, the window as written and the inclusive window agree |
| Models.CastObjectId | backend/controllers/appointmentController.js:23 | a cast succeeds exactly on 24 hexadecimal digits, giving the same digits in lower case, and leaves a canonical id unchanged |
| Models.ParseConsultationType | backend/models/Doctor.js:29-33 | exactly `online`, `offline` and `both` are accepted, each as its own type |
| Models.ParseStatus | backend/models/Appointment.js:38-42 | exactly the four status names are accepted, each as its own status |
| Models.ParseWeekday | backend/models/Doctor.js:39-42 | exactly the seven capitalised day names are accepted |
| Models.RequiredTrimmed | backend/models/Doctor.js:4-18 | a required trimmed string field has no error exactly when it is present and not blank after trimming |
| Models.RequiredNonNegative | backend/models/Doctor.js:19-28 | a required number with minimum 0 has no error exactly when it is present and not negative |
| Models.TrimOption | backend/models/Doctor.js:54-65 | an optional trimmed field stays absent or is stored trimmed |
| Models.ApplySlotSchema | backend/models/Doctor.js:38-49 | a slot keeps its day as the named weekday and its start and end times as given, and `isAvailable` is true unless given as false |
| Models.EnumAndRangeErrors | backend/models/Doctor.js:29-71 | no error exactly when a given type is one of the three, every given slot day is a weekday name, and a given rating lies in [0, 5] |
| Models.DoctorSchemaErrors | backend/models/Doctor.js:3-78 | no error exactly when the input meets every requirement of the doctor schema |
| Models.ApplySlots | backend/models/Doctor.js:38-49 | every slot is put through the slot schema, in order |
| Models.TypeOrBoth | backend/models/Doctor.js:29-33 | an absent consultation type becomes `both`; a given one is kept |
| Models.BuildDoctor | backend/models/Doctor.js:3-78 | the stored doctor is well formed, with the given id and creation time, name, speciality and location trimmed, `about`, `education` and `hospital` trimmed when given, experience and fee as given, and a given rating, review count and profile image kept |
| Models.BuildDoctorDefaults | backend/models/Doctor.js:29-75 | defaults: type `both`, rating 4.5, review count 0, the placeholder image, slots available unless given otherwise; a given type, rating, review count or image replaces its default; languages trimmed in order |
| Models.ApplyDoctorSchema | backend/models/Doctor.js:3-78 | creation succeeds exactly when the schema accepts the input, and a failure lists at least one violation |
| Models.FindDoctor | backend/controllers/appointmentController.js:23-29 | a doctor is found exactly when one with that id is stored; the one found is stored and has that id. `getDoctorById` uses the same lookup |
| Models.NormalizeEmail | backend/models/Appointment.js:14-19 | the stored e-mail is trimmed, has no ASCII upper-case letter, and is as long as the trimmed input |
| Models.ApplyAppointmentSchema | backend/models/Appointment.js:3-49 | creation succeeds exactly when every required field is present and not blank and the enums hold. The stored record is well formed, with name, phone and notes trimmed, the e-mail normalised, and the status pending unless given |
| Models.AppointmentSchemaErrors | backend/models/Appointment.js:3-49 | no error exactly when the appointment schema accepts the input |
| Directory.ToNumber | backend/controllers/doctorController.js:43-44 | a price bound is a number exactly when the string is a decimal numeral, and then its value |
| Directory.LanguageList | backend/controllers/doctorController.js:48 | the split-and-trim gives at least one entry, each trimmed |
| Directory.SharesLanguageMeaning | backend/controllers/doctorController.js:47-50 | `$in` on the languages array holds exactly when some language of the doctor equals some requested language |
| Directory.LanguagesApart | backend/controllers/doctorController.js:47-50 | a doctor matches exactly when the doctor shares a listed language and matches the same criteria without languages |
| Directory.FilterMeaning | backend/controllers/doctorController.js:24-58 | a doctor matches exactly when: speciality and location, when given, match case-insensitively; a given search matches name, speciality or location; without a search, a type other than `all` admits that type or `both`; given price bounds are numbers bounding the fee inclusively; and the doctor speaks one of the trimmed comma-separated languages |
| Directory.SearchOverridesType | backend/controllers/doctorController.js:52-58 | with a free-text search, the requested consultation type has no effect on matching |
| Directory.TypeFilterExcludes | backend/controllers/doctorController.js:34-39 | an online-only doctor fails an `offline` filter unless a search is given |
| Directory.PriceBoundsInclusive | backend/controllers/doctorController.js:41-45 | a minimum and maximum equal to the fee admit the doctor |
| Directory.SelectMatching | backend/controllers/doctorController.js:72 | the selection holds each matching doctor as often as stored, no other doctor, and as many doctors as match |
| Directory.BuildSort | backend/controllers/doctorController.js:61-66 | without `sortBy`, newest first; with it, descending exactly when `sortOrder` is `desc` |
| Directory.Order | backend/controllers/doctorController.js:73 | the result is a permutation, ascending or descending by the field's key as requested |
| Directory.CeilDiv | backend/controllers/doctorController.js:84 | the result is the least number of pages of `limit` holding the total, and 0 exactly when the total is 0 |
| Directory.Offset | backend/controllers/doctorController.js:69 | the number skipped is `(page - 1) * limit`, or all results when fewer |
| Directory.Paginate | backend/controllers/doctorController.js:69-87 | the page is the contiguous slice after the skipped results, `limit` long or up to the end when fewer remain. The block echoes the page, counts all results, gives the ceiling page count, and sets `hasMore` exactly when a later page exists |
| Directory.Search | backend/controllers/doctorController.js:7-96 | the search fails exactly when the page is below 1 or a given price bound is not a number, and then with the fetch error. Otherwise the pagination block has the requested page (default 1) and at most `limit` doctors (default 10); it counts every matching doctor, gives the ceiling page count, and sets `hasMore` exactly when a later page exists |
| Directory.PageWindow | backend/controllers/doctorController.js:72-75 | a page's doctors are a contiguous window of the ordered results |
| Directory.SearchWindow | backend/controllers/doctorController.js:71-77 | a search page is the window of the ordered matching doctors that starts after the skipped ones and is `limit` long or ends with the matches |
| Directory.SearchPageLength | backend/controllers/doctorController.js:69-75 | a page holds `limit` doctors, or the matches left after the skipped ones when fewer remain |
| Directory.SearchPageMatches | backend/controllers/doctorController.js:71-77 | every doctor on a page is stored and matches the filter |
| Directory.SearchPageOrdered | backend/controllers/doctorController.js:72-75 | every page is in the requested order |
| Directory.PaginationArithmetic | backend/controllers/doctorController.js:84-86 | `skip + length < total` holds exactly when the page is before the last page |
| Directory.GetDoctorById | backend/controllers/doctorController.js:102-111 | a malformed id is a store failure; a valid one finds a doctor exactly when one is stored under it, and otherwise is not found |
| Directory.Specialities | backend/controllers/doctorController.js:143-149 | every stored speciality once, nothing else, strictly ascending |
| Directory.Locations | backend/controllers/doctorController.js:163-169 | every stored location once, nothing else, strictly ascending |
| Directory.AllLanguages | backend/controllers/doctorController.js:185-189 | the concatenation holds exactly the languages some doctor speaks |
| Directory.Languages | backend/controllers/doctorController.js:183-193 | every language some doctor speaks, once, nothing else, strictly ascending |
| Directory.FacetsDistinct | backend/controllers/doctorController.js:145-192 | no facet list repeats an entry |
| Validation.DoctorIdErrors | backend/routes/appointmentRoutes.js:13-17 | the doctor id passes exactly when `isMongoId` accepts it: 24 hexadecimal digits, or a `0x` or `0h` prefix and 22; every error names the field |
| Validation.MongoIdBeyondCast | backend/routes/appointmentRoutes.js:13-17 | every id the store can cast passes `isMongoId`; the ids that pass it but cannot be cast are exactly the prefixed ones |
| Validation.PrefixedIdPassesValidation | backend/routes/appointmentRoutes.js:13-17 | `0x` followed by 22 hexadecimal digits passes both doctor-id validators and fails the cast |
| Validation.PatientNameErrors | backend/routes/appointmentRoutes.js:18-23 | the name passes exactly when its trimmed length is between 2 and 100 |
| Validation.PatientEmailErrors | backend/routes/appointmentRoutes.js:24-28 | the e-mail passes exactly when it is non-empty and the e-mail check accepts it |
| Validation.PatientPhoneErrors | backend/routes/appointmentRoutes.js:29-33 | the phone passes exactly when it is one or more digits, `+`, `-`, whitespace or parentheses |
| Validation.DateErrors | backend/routes/appointmentRoutes.js:34-38 | the date passes exactly when it is non-empty and the ISO 8601 check accepts it |
| Validation.TimeErrors | backend/routes/appointmentRoutes.js:39-41 | the time passes exactly when it is non-empty |
| Validation.ConsultationTypeErrors | backend/routes/appointmentRoutes.js:42-46 | the type passes exactly when it is `online` or `offline` |
| Validation.ValidationErrors | backend/routes/appointmentRoutes.js:12-47 | the chain reports no error exactly when the request is valid in every field |
| Validation.TypeErrorReported | backend/routes/appointmentRoutes.js:42-46 | the type message is reported exactly when the type is neither `online` nor `offline` |
| Validation.NameLengthErrorReported | backend/routes/appointmentRoutes.js:18-23 | the length message is reported exactly when the trimmed name is outside 2 to 100 characters |
| Validation.PhoneErrorReported | backend/routes/appointmentRoutes.js:29-33 | the pattern message is reported exactly when the phone does not match the pattern |
| Validation.EmptyDoctorIdReportedTwice | backend/routes/appointmentRoutes.js:13-17 | a missing doctor id is reported first as required and then as invalid |
| Validation.CreateAppointment | backend/routes/appointmentRoutes.js:50 | an invalid request fails with the chain's messages and leaves the ledger unchanged; a valid one never fails validation. A request is booked exactly when it is valid and every check of the controller passes, and a booking appends the new appointment. Past validation, an id the store cannot cast is a store failure, and an unknown doctor, a type not offered and a held slot are reported exactly as the controller reports them. Every failure leaves the ledger unchanged |
| Validation.CreatedAppointment | backend/controllers/appointmentController.js:54-64 | a created appointment is appended, pending, of a single type, at the parsed date, with the notes trimmed and a name of 2 to 100 characters |
| Validation.ValidRequestBooked | backend/controllers/appointmentController.js:20-64 | a valid request with an id the store can cast, for a stored doctor who offers the type, at a free slot, with an e-mail and phone that do not trim to nothing, is booked and appended |
| Validation.BothTypeRejected | backend/routes/appointmentRoutes.js:42-46 | a request for `both` fails validation and never reaches the ledger, whatever the doctor offers |
| Validation.BlankPhonePassesValidation | backend/routes/appointmentRoutes.js:29-33 | a phone of whitespace only passes the pattern, yet the booking fails, and not as a validation failure |
| Filters.ApplyPatch | frontend/src/pages/SearchPage.jsx:65-67 | each key given takes the new value and every other key keeps its value |
| Filters.ApplyPatchIdempotent | frontend/src/pages/SearchPage.jsx:65-67 | merging the same keys twice equals merging them once, and merging nothing changes nothing |
| Filters.Without | frontend/src/components/FilterSidebar.jsx:29 | the value is gone and every other value is kept |
| Filters.Toggle | frontend/src/components/FilterSidebar.jsx:26-32 | the value is present afterwards exactly when it was absent; others are unaffected; an absent value is appended at the end |
| Filters.ToggleTwiceRestores | frontend/src/components/FilterSidebar.jsx:26-40 | toggling an absent value twice restores the list |
| Filters.SpecialityToggled | frontend/src/components/FilterSidebar.jsx:26-32 | only the specialities list changes; the clicked speciality is ticked afterwards exactly when it was not before, and no other speciality changes |
| Filters.LanguageToggled | frontend/src/components/FilterSidebar.jsx:34-40 | only the languages list changes; the clicked language is ticked afterwards exactly when it was not before, and no other language changes |
| Filters.PriceChange | frontend/src/components/FilterSidebar.jsx:42-53 | only the two prices change: `''` clears both, `2000+` gives minimum 2000 and no maximum, and `a-b` gives bounds that rejoin to `a-b` |
| Filters.TwoThousandPlusNeverChecked | frontend/src/components/FilterSidebar.jsx:146-152 | as written, the `2000+` radio is never checked, not even right after it is chosen |
| Filters.PriceRadioRoundTrip | frontend/src/components/FilterSidebar.jsx:146-153 | with the special case on `2000+`, choosing any price radio checks exactly that radio |
| Filters.ClearAll | frontend/src/pages/SearchPage.jsx:69-82 | after clearing, no filter is active, speciality and location are empty, and sorting is by no field, ascending |
| Filters.ActiveIffNotCleared | frontend/src/components/FilterSidebar.jsx:55-63 | filters are active exactly when the record differs from the cleared one outside location and the single speciality |
| Filters.HandleSort | frontend/src/pages/SearchPage.jsx:84-91 | the chosen field becomes the sort field; the same field flips ascending and descending; a new field starts ascending |
| Filters.SortTwiceRestores | frontend/src/pages/SearchPage.jsx:84-91 | sorting twice on the current field restores the sort state |
| Filters.InitialFilters | frontend/src/pages/SearchPage.jsx:14-22 | the initial record has type `all`, no languages and no prices, and is active exactly when a non-empty speciality parameter is given |
| Filters.BuildQuery | frontend/src/pages/SearchPage.jsx:36-61 | the query carries the first ticked speciality or else the typed one. It omits type `all` and carries location and prices as they are. Languages are empty exactly when none would be sent. Sort field and order are sent only together. There is no free-text search and no paging |
| Filters.LanguagesRoundTrip | frontend/src/pages/SearchPage.jsx:55-57 | the server's split-and-trim of the joined list gives the list back when no entry has a comma or surrounding whitespace |
| Filters.QueryWithoutLanguages | frontend/src/pages/SearchPage.jsx:36-61 | unticking every language changes only the query's languages key |
| Filters.LanguageFilterEndToEnd | frontend/src/pages/SearchPage.jsx:55-57 | for such a list, the server filters on exactly the ticked languages: a doctor matches exactly when the doctor speaks one of them and matches the same query without languages |
| Filters.TypeFilterEndToEnd | frontend/src/pages/SearchPage.jsx:46-48 | a type other than `all` sent by the page admits only doctors of that type or `both` |
| BookingForm.HandleChange | frontend/src/components/BookingModal.jsx:68-71 | the named field takes the value and no other field changes |
| BookingForm.DefaultConsultationType | frontend/src/components/BookingModal.jsx:14-15 | the default is `online` or `offline`, and `offline` exactly for an offline-only doctor |
| BookingForm.DefaultTypeAccepted | frontend/src/components/BookingModal.jsx:14-15 | the default passes the controller's compatibility check and the type validator for every doctor type |
| BookingForm.InitialForm | frontend/src/components/BookingModal.jsx:8-17 | the form opens with every text field empty (name, e-mail, phone, date, time, notes) and the default type |
| BookingForm.NoChoiceMeansOwnType | frontend/src/components/BookingModal.jsx:231 | when the type radios are not shown, the form's type is the doctor's own single type |
| BookingForm.HourLabel | frontend/src/components/BookingModal.jsx:23 | the padded hour is two digits denoting the hour |
| BookingForm.LabelOrder | frontend/src/components/BookingModal.jsx:22-25 | for slot labels, an earlier time is a smaller string |
| BookingForm.HalfHourLabel | frontend/src/components/BookingModal.jsx:23-24 | `hh:00` and `hh:30` are the slot labels at positions `2 * (hour - 9)` and one after |
| BookingForm.GenerateTimeSlots | frontend/src/components/BookingModal.jsx:20-27 | exactly 18 labels; label `i` is the slot `09:00` plus `30 * i` minutes; strictly ascending; first `09:00`, last `17:30` |
| BookingForm.BookedSlotDisabled | frontend/src/components/BookingModal.jsx:207-213 | after a successful booking, its time button is disabled for any date on the same local day; with the controller's window, unless the booking is on the day's last millisecond |
| BookingForm.Submission | frontend/src/components/BookingModal.jsx:76-79 | the submitted body carries the doctor id and the form's patient name, e-mail, phone, date, time, type and notes |
| BookingForm.EnabledSubmitPassesPresenceChecks | frontend/src/components/BookingModal.jsx:290 | with submit enabled, the date and time validators pass, and the default type passes the type validator |
| Text.Trim | backend/routes/appointmentRoutes.js:21 | the result has no surrounding whitespace and is a slice of the input with only whitespace around it |
| Text.TrimIdempotent | backend/routes/appointmentRoutes.js:21 | trimming twice is trimming once |
| Text.SplitJoin | frontend/src/pages/SearchPage.jsx:56 | splitting a comma-joined list of comma-free entries gives the list back |
| Text.DecimalRoundTrip | backend/controllers/doctorController.js:43-44 | reading back the decimal numeral of any natural number gives that number, so the price string of a fee is read as the fee |
| Sorting.SortByKey | backend/controllers/doctorController.js:73 | the result is an ascending permutation of the input |
| Sorting.ReverseSorted | backend/controllers/doctorController.js:63 | reversing an ascending sequence gives a descending one |
| Sorting.SortedDistinct | backend/controllers/doctorController.js:192 | every value once, nothing else, strictly ascending |

## Left out

- **HTTP and persistence.** Express responses, status codes, `populate`, and the store calls are not modelled as calls: the store is a sequence and answers are `Result` values. The `catch` paths appear only where a cast fails.
- **Concurrency.** Bookings are sequential calls, so the check-then-insert race between concurrent bookings is not modelled.
- **Time zones.** Daylight-saving changes are not modelled; the local time zone is a fixed offset.
- **Date parsing.** Date strings are parsed by the `parseDate` parameter.
- **Library validators.** `isEmail` and `isISO8601` are opaque parameters.
- **Regular expressions.** `$regex` with option `i` is a case-insensitive substring test. Patterns with regular-expression metacharacters behave differently in MongoDB.
- **Case folding.** `ToLower` folds ASCII letters only, where JavaScript's `toLowerCase` and MongoDB's option `i` fold all of Unicode. This affects the case-insensitive searches and the stored e-mail.
- **Numbers.** `Number()` is modelled for plain decimal numerals only: signs, fractions, exponents and surrounding whitespace give `NaN` here. Fees and experience are integers. The rating is a `real`.
- Directory.Search: a price bound that `Number()` reads but this model does not (`12.5`, ` 12`, `1e3`, `-5`) fails the search here, where the program filters by its value.
- **String order.** Order is by character code, which agrees with UTF-16 order for the Basic Multilingual Plane only.
- **Ties.** The order of doctors with equal sort keys, and of appointments with equal date and time, is left unspecified, as MongoDB leaves it.
- **Array and unknown sort fields.** MongoDB orders an array field by its least element ascending and its greatest descending. Sorting by `languages` or `availabilitySlots`, by a dotted path, or by a field doctors do not have gives all doctors the same key. Every other field of a doctor has its own key, an absent optional string sorting first.
- **`getDoctorById` extras.** The `appointmentsToday` count is not modelled; it reads the clock.
- **Booking form date range.** `getMinDate`, `getMaxDate` and the booked-slot fetch effect are not modelled; they read the clock or run asynchronously.
- **Object ids.** The 12-byte string form of an object id is not modelled.
- **Seed data.** `backend/seed.js` is not modelled.
- Directory.Search: requires a positive `limit` when one is given. A limit of 0 makes MongoDB return every match, while the page count divides by zero.
- Filters.PriceChange: requires the value to be one of the six radio values, the only values its caller passes.
- Models.NormalizeEmail: folds ASCII letters only. The program stores `Ä@example.com` as `ä@example.com`, and `toLowerCase` can change the length (`İ` becomes two code units), so "no upper-case letter" and the unchanged length hold here for ASCII folding only.
- Validation.DoctorIdErrors: follows validator 13 and later. Earlier versions of `isMongoId` refuse the `0x`/`0h` prefix, and no version is pinned.
- Validation.CreateAppointment: does not model the response's `populate` of the doctor's name, speciality, location and fee.
- Validation.CreateAppointment: reads the body's date with a total `parseDate`. A date that `isISO8601` admits but `new Date` cannot read, such as the week date `2025-W24-2`, is booked here, where the program's conflict query fails the date cast and answers with its 500 error.
- Ledger.UpdateStatus: appointments carry no `createdAt` or `updatedAt`, so the `updatedAt` that the schema's `timestamps` option sets on every update is not modelled; "only the status changes" holds of the modelled fields.

## Findings

| source | as written | input that shows it | evidently intended | confidence | as-written member | corrected member |
|---|---|---|---|---|---|---|
| backend/controllers/appointmentController.js:142-145 | the day window ends with `$lt` on 23:59:59.999 of the local day (also line 98) | an active appointment at 23:59:59.999 local time is missing from the booked slots and the day's list | `$lte`, or `$lt` the next midnight: every millisecond of the day | medium, not executed | Calendar.AsWrittenWindowMissesLastMillisecond | Calendar.DayWindowIsLocalDay |
| frontend/src/components/FilterSidebar.jsx:146-152 | the special case of the price radio's `checked` test compares with `'300+'` | choosing `₹2000+` sets minimum 2000 and no maximum; the generic case then compares `2000-` with `2000+`, so no radio is checked | compare with `'2000+'`, the group's own value | high, not executed | Filters.TwoThousandPlusNeverChecked | Filters.PriceRadioRoundTrip |

The windows are the predicates `Calendar.InDayWindowAsWritten` (as written) and `Calendar.InDayWindow` (corrected). The ledger's day queries take the window as a parameter. `Ledger.LastMillisecondBookingHidden` shows the consequence: as written, a booking on the last millisecond of its day is missing from that day's booked slots, and with the corrected window it is listed. The price tests are `Filters.PriceRadioCheckedAsWritten` and `Filters.PriceRadioChecked`.

=== FILE: booking_form.dfy ===
/** The booking form: its fields and change handler, the default
    consultation type, the fixed half-hour time slots from 09:00 to 17:30,
    and the conditions that disable a slot button or the submit button. */
module BookingForm {
  import opened Wrappers
  import opened Text
  import opened Calendar
  import opened Models
  import opened Ledger
  import opened Validation

  /** The form state; every field is a string, empty until filled in. */
  datatype FormData = FormData(
    patientName: string,
    patientEmail: string,
    patientPhone: string,
    date: string,
    time: string,
    consultationType: string,
    notes: string)

  datatype Field = PatientName | PatientEmail | PatientPhone | Date | Time | ConsultationTypeField | Notes

  function Get(f: FormData, field: Field): string {
    match field
    case PatientName => f.patientName
    case PatientEmail => f.patientEmail
    case PatientPhone => f.patientPhone
    case Date => f.date
    case Time => f.time
    case ConsultationTypeField => f.consultationType
    case Notes => f.notes
  }

  /** `handleChange`: the named field takes the new value and no other field changes. */
  function HandleChange(f: FormData, field: Field, value: string): (r: FormData)
    ensures Get(r, field) == value
    ensures forall g :: g != field ==> Get(r, g) == Get(f, g)
  {
    match field
    case PatientName => f.(patientName := value)
    case PatientEmail => f.(patientEmail := value)
    case PatientPhone => f.(patientPhone := value)
    case Date => f.(date := value)
    case Time => f.(time := value)
    case ConsultationTypeField => f.(consultationType := value)
    case Notes => f.(notes := value)
  }

  /** The initial consultation type: the doctor's own type when it offers
      only one, `online` otherwise, and `online` when the doctor is not known. */
  function DefaultConsultationType(doctorType: Option<ConsultationType>): (r: string)
    ensures r == "online" || r == "offline"
    ensures doctorType == Some(Offline) <==> r == "offline"
  {
    if doctorType == Some(Online) then "online"
    else if doctorType == Some(Offline) then "offline"
    else "online"
  }

  /** The default passes the controller's compatibility check for every doctor. */
  lemma DefaultTypeAccepted(t: ConsultationType)
    ensures TypeAccepted(t, DefaultConsultationType(Some(t)))
    ensures ConsultationTypeErrors(DefaultConsultationType(Some(t))) == []
  {
  }

  /** The form as the modal opens it. */
  function InitialForm(doctorType: Option<ConsultationType>): (r: FormData)
    ensures r.date == "" && r.time == "" && r.patientName == ""
    ensures r.patientEmail == "" && r.patientPhone == "" && r.notes == ""
    ensures r.consultationType == DefaultConsultationType(doctorType)
  {
    FormData("", "", "", "", "", DefaultConsultationType(doctorType), "")
  }

  /** The type radios are shown only for a doctor offering both types. */
  predicate ConsultationChoiceOffered(doctorType: Option<ConsultationType>) {
    doctorType == Some(Both)
  }

  /** Without the radios the form keeps the default, which is the doctor's own single type. */
  lemma NoChoiceMeansOwnType(t: ConsultationType)
    requires !ConsultationChoiceOffered(Some(t))
    ensures DefaultConsultationType(Some(t)) == ConsultationTypeName(t)
  {
  }

  /** Two decimal digits giving the hour: `hour.toString().padStart(2, '0')`. */
  function HourLabel(hour: nat): (s: string)
    requires hour < 100
    ensures |s| == 2 && IsDigit(s[0]) && IsDigit(s[1])
    ensures DigitsValue(s) == hour
  {
    var digits := DecimalString(hour);
    DecimalRoundTrip(hour);
    var s := PadStart(digits, 2, '0');
    if hour < 10 then
      assert s == ['0'] + digits;
      assert s[..1] == ['0'] && s[..1][..0] == [];
      s
    else
      assert s == digits;
      s
  }

  /** A slot label: two digits of an hour from 9 to 17, a colon, and `00` or `30`. */
  predicate IsSlotLabel(s: string) {
    && |s| == 5 && IsDigit(s[0]) && IsDigit(s[1]) && s[2] == ':'
    && (s[3..] == "00" || s[3..] == "30")
    && 9 <= DigitsValue(s[..2]) <= 17
  }

  /** The minutes after midnight a slot label denotes. */
  function LabelMinutes(s: string): (m: nat)
    requires IsSlotLabel(s)
    ensures m % 30 == 0 && 540 <= m <= 1050
  {
    assert DigitsValue("00") == 0 && DigitsValue("30") == 30 by {
      assert "00"[..1] == "0" && "0"[..0] == [];
      assert "30"[..1] == "3" && "3"[..0] == [];
    }
    DigitsValue(s[..2]) * 60 + DigitsValue(s[3..])
  }

  /** The `k`th half-hour slot of the day, counting from 09:00. */
  predicate SlotAt(s: string, k: nat) {
    IsSlotLabel(s) && LabelMinutes(s) == 540 + 30 * k
  }

  /** The value of a minute field. */
  lemma MinuteValue(minutes: string)
    requires minutes == "00" || minutes == "30"
    ensures DigitsValue(minutes) == if minutes == "30" then 30 else 0
  {
    TwoDigits(minutes);
  }

  /** Two hour digits, a colon and a minute field make a slot label. */
  lemma LabelParts(h: string, minutes: string)
    requires |h| == 2 && IsDigit(h[0]) && IsDigit(h[1]) && 9 <= DigitsValue(h) <= 17
    requires minutes == "00" || minutes == "30"
    ensures IsSlotLabel(h + ":" + minutes)
    ensures LabelMinutes(h + ":" + minutes) == DigitsValue(h) * 60 + DigitsValue(minutes)
  {
    var a := h + ":" + minutes;
    assert a[..2] == h;
    assert a[3..] == minutes;
  }

  /** `hh:00` and `hh:30` are the slots `2 * (hour - 9)` and one after it. */
  lemma HalfHourLabel(hour: nat, minutes: string, k: nat)
    requires 9 <= hour <= 17
    requires minutes == "00" || minutes == "30"
    requires k == 2 * (hour - 9) + (if minutes == "30" then 1 else 0)
    ensures SlotAt(HourLabel(hour) + ":" + minutes, k)
  {
    LabelParts(HourLabel(hour), minutes);
    MinuteValue(minutes);
  }

  /** The value of two digits, first digit first. */
  lemma TwoDigits(s: string)
    requires |s| == 2 && IsDigit(s[0]) && IsDigit(s[1])
    ensures DigitsValue(s) == 10 * DigitValue(s[0]) + DigitValue(s[1])
  {
    var front := s[..1];
    assert front == [s[0]] && front[..0] == [];
    assert DigitsValue(front) == 10 * DigitsValue(front[..0]) + DigitValue(front[0]);
    assert DigitsValue(s) == 10 * DigitsValue(front) + DigitValue(s[1]);
  }

  /** For slot labels, string order is time order. */
  lemma LabelOrder(a: string, b: string)
    requires IsSlotLabel(a) && IsSlotLabel(b)
    requires LabelMinutes(a) < LabelMinutes(b)
    ensures LexLt(a, b)
  {
    TwoDigits(a[..2]);
    TwoDigits(b[..2]);
    var ha := DigitsValue(a[..2]);
    var hb := DigitsValue(b[..2]);
    assert DigitsValue("00") == 0 && DigitsValue("30") == 30 by {
      assert "00"[..1] == "0" && "0"[..0] == [];
      assert "30"[..1] == "3" && "3"[..0] == [];
    }
    if ha < hb {
      if a[0] == b[0] {
        assert a[1] < b[1];
        assert LexLe(a[1..], b[1..]);
      }
    } else {
      assert ha == hb;
      assert a[0] == b[0] && a[1] == b[1];
      assert a[3..] == "00" && b[3..] == "30";
      assert a[3] < b[3];
      assert LexLe(a[3..], b[3..]);
      assert a[2..][1..] == a[3..] && b[2..][1..] == b[3..];
      assert LexLe(a[2..], b[2..]);
      assert a[1..][1..] == a[2..] && b[1..][1..] == b[2..];
      assert LexLe(a[1..], b[1..]);
    }
    assert a != b by {
      assert LabelMinutes(a) != LabelMinutes(b);
    }
  }

  /** The labels at half-hour steps from 09:00 are in string order and run from `09:00` to `17:30`. */
  lemma HalfHourSteps(slots: seq<string>)
    requires |slots| == 18
    requires forall i :: 0 <= i < |slots| ==> SlotAt(slots[i], i)
    ensures forall i, j :: 0 <= i < j < |slots| ==> LexLt(slots[i], slots[j])
    ensures slots[0] == "09:00" && slots[17] == "17:30"
  {
    forall i, j | 0 <= i < j < |slots| ensures LexLt(slots[i], slots[j]) {
      LabelOrder(slots[i], slots[j]);
    }
    FirstAndLastLabels(slots[0], slots[17]);
  }

  /** Appending the next two slots keeps every slot at its own position. */
  lemma AppendSlots(slots: seq<string>, onHour: string, onHalf: string)
    requires forall i :: 0 <= i < |slots| ==> SlotAt(slots[i], i)
    requires SlotAt(onHour, |slots|) && SlotAt(onHalf, |slots| + 1)
    ensures forall i :: 0 <= i < |slots| + 2 ==> SlotAt((slots + [onHour, onHalf])[i], i)
  {
    var r := slots + [onHour, onHalf];
    forall i | 0 <= i < |r| ensures SlotAt(r[i], i) {
      if i < |slots| {
        assert r[i] == slots[i];
      } else if i == |slots| {
        assert r[i] == onHour;
      } else {
        assert r[i] == onHalf;
      }
    }
  }

  /** `generateTimeSlots`: two labels per hour from 9 to 17. */
  method GenerateTimeSlots() returns (slots: seq<string>)
    ensures |slots| == 18
    ensures forall i :: 0 <= i < |slots| ==> SlotAt(slots[i], i)
    ensures forall i, j :: 0 <= i < j < |slots| ==> LexLt(slots[i], slots[j])
    ensures slots[0] == "09:00" && slots[17] == "17:30"
  {
    slots := [];
    var hour := 9;
    while hour < 18
      invariant 9 <= hour <= 18
      invariant |slots| == 2 * (hour - 9)
      invariant forall i :: 0 <= i < |slots| ==> SlotAt(slots[i], i)
    {
      var hh := HourLabel(hour);
      var onHour, onHalf := hh + ":" + "00", hh + ":" + "30";
      HalfHourLabel(hour, "00", |slots|);
      HalfHourLabel(hour, "30", |slots| + 1);
      AppendSlots(slots, onHour, onHalf);
      slots := slots + [onHour, onHalf];
      hour := hour + 1;
    }
    HalfHourSteps(slots);
  }

  /** The labels at 09:00 and 17:30. */
  lemma FirstAndLastLabels(first: string, last: string)
    requires IsSlotLabel(first) && LabelMinutes(first) == 540
    requires IsSlotLabel(last) && LabelMinutes(last) == 1050
    ensures first == "09:00" && last == "17:30"
  {
    TwoDigits(first[..2]);
    TwoDigits(last[..2]);
    assert DigitsValue("00") == 0 && DigitsValue("30") == 30 by {
      assert "00"[..1] == "0" && "0"[..0] == [];
      assert "30"[..1] == "3" && "3"[..0] == [];
    }
    assert first[3..] == "00";
    assert last[3..] == "30";
    assert first == first[..2] + ":" + first[3..];
    assert last == last[..2] + ":" + last[3..];
  }

  /** A slot button is disabled when its label is among the booked slots. */
  predicate SlotDisabled(slot: string, booked: seq<string>) {
    slot in booked
  }

  /** Once a booking succeeds, its time is disabled in the form of anyone
      choosing a date on the same local day for that doctor, unless the
      controller's window is used and the booking sits on the day's last
      millisecond. */
  lemma BookedSlotDisabled(directory: seq<Doctor>, ledger: seq<Appointment>, req: BookingRequest, newId: ObjectId,
                           date: string, parseDate: string -> Option<Instant>, offset: int, w: DayWindow)
    requires IsCanonicalId(newId)
    requires Book(directory, ledger, req, newId).result.Ok?
    requires date != "" && parseDate(date).Some?
    requires LocalDay(parseDate(date).value, offset) == LocalDay(req.date, offset)
    requires w.AsWritten? ==> req.date != EndOfDay(parseDate(date).value, offset)
    ensures BookedSlots(Book(directory, ledger, req, newId).ledger, req.doctorId, date, parseDate, offset, w).Ok?
    ensures SlotDisabled(req.time, BookedSlots(Book(directory, ledger, req, newId).ledger, req.doctorId, date, parseDate, offset, w).value)
  {
    BookedSlotShowsUp(directory, ledger, req, newId, date, parseDate, offset, w);
  }

  /** The submit button is disabled while a request is in flight or while the date or time is empty. */
  predicate SubmitDisabled(loading: bool, f: FormData) {
    loading || f.date == "" || f.time == ""
  }

  /** `{doctorId, ...formData}`: the body the form submits. */
  function Submission(doctorId: string, f: FormData): (raw: RawBooking)
    ensures raw.doctorId == doctorId && raw.time == f.time && raw.date == f.date
    ensures raw.consultationType == f.consultationType && raw.notes == Some(f.notes)
    ensures raw.patientName == f.patientName && raw.patientEmail == f.patientEmail
    ensures raw.patientPhone == f.patientPhone
  {
    RawBooking(doctorId, f.patientName, f.patientEmail, f.patientPhone, f.date, f.time, f.consultationType, Some(f.notes))
  }

  /** An enabled submit button guarantees the date and time validators pass,
      and a form whose type is the default passes the type validator. */
  lemma EnabledSubmitPassesPresenceChecks(doctorId: string, f: FormData, doctorType: Option<ConsultationType>)
    requires !SubmitDisabled(false, f)
    requires f.consultationType == DefaultConsultationType(doctorType)
    ensures TimeErrors(Submission(doctorId, f).time) == []
    ensures Submission(doctorId, f).date != ""
    ensures ConsultationTypeErrors(Submission(doctorId, f).consultationType) == []
  {
  }
}

=== FILE: calendar.dfy ===
/** Instants and local calendar days, as the appointment queries use them.
    An instant is a JavaScript `Date` value: whole milliseconds since the
    epoch. The server's time zone is a fixed offset from UTC (daylight-saving
    changes are not modelled), so the local day of an instant is a floor
    division. */
module Calendar {

  type Instant = int

  const MsPerDay: int := 86_400_000

  /** The local day number of `t`, where local time is UTC plus `offset` ms. */
  function LocalDay(t: Instant, offset: int): int {
    (t + offset) / MsPerDay
  }

  /** `new Date(t).setHours(0, 0, 0, 0)`: the first millisecond of `t`'s local day. */
  function StartOfDay(t: Instant, offset: int): (r: Instant)
    ensures r <= t < r + MsPerDay
    ensures LocalDay(r, offset) == LocalDay(t, offset)
    ensures LocalDay(r - 1, offset) == LocalDay(t, offset) - 1
  {
    LocalDay(t, offset) * MsPerDay - offset
  }

  /** `new Date(t).setHours(23, 59, 59, 999)`: the last millisecond of `t`'s local day. */
  function EndOfDay(t: Instant, offset: int): (r: Instant)
    ensures t <= r
    ensures LocalDay(r, offset) == LocalDay(t, offset)
    ensures LocalDay(r + 1, offset) == LocalDay(t, offset) + 1
  {
    StartOfDay(t, offset) + MsPerDay - 1
  }

  /** The day window as the controller writes it: `$gte` the start of the
      day and `$lt` its last millisecond, which leaves that millisecond out. */
  predicate InDayWindowAsWritten(t: Instant, day: Instant, offset: int) {
    StartOfDay(day, offset) <= t < EndOfDay(day, offset)
  }

  /** The day window as intended: every millisecond of the local day of `day`. */
  predicate InDayWindow(t: Instant, day: Instant, offset: int) {
    StartOfDay(day, offset) <= t <= EndOfDay(day, offset)
  }

  /** The intended window holds exactly the instants of the same local day. */
  lemma DayWindowIsLocalDay(t: Instant, day: Instant, offset: int)
    ensures InDayWindow(t, day, offset) <==> LocalDay(t, offset) == LocalDay(day, offset)
  {
  }

  /** The window as written misses an instant of the queried day: its last millisecond. */
  lemma AsWrittenWindowMissesLastMillisecond(day: Instant, offset: int)
    ensures LocalDay(EndOfDay(day, offset), offset) == LocalDay(day, offset)
    ensures !InDayWindowAsWritten(EndOfDay(day, offset), day, offset)
    ensures InDayWindow(EndOfDay(day, offset), day, offset)
  {
  }

  /** The window a day query uses: the controller's, which stops short of
      the day's last millisecond, or the whole local day. */
  datatype DayWindow = AsWritten | WholeDay

  predicate InWindow(w: DayWindow, t: Instant, day: Instant, offset: int) {
    if w.AsWritten? then InDayWindowAsWritten(t, day, offset) else InDayWindow(t, day, offset)
  }

  /** Either window holds the instants of the local day of `day`, the
      controller's without the last millisecond. */
  lemma WindowIsLocalDay(w: DayWindow, t: Instant, day: Instant, offset: int)
    ensures InWindow(w, t, day, offset) <==>
              LocalDay(t, offset) == LocalDay(day, offset) && (w.AsWritten? ==> t != EndOfDay(day, offset))
  {
    DayWindowIsLocalDay(t, day, offset);
  }

  /** Apart from that one millisecond the two windows agree. */
  lemma AsWrittenWindowOtherwiseAgrees(t: Instant, day: Instant, offset: int)
    requires t != EndOfDay(day, offset)
    ensures InDayWindowAsWritten(t, day, offset) <==> InDayWindow(t, day, offset)
  {
  }
}

=== FILE: directory.dfy ===
/** The doctor directory queries: the search filter built from the request
    body, the sort rule, pagination, lookup by id, and the facet lists for
    specialities, locations and languages. The directory is a sequence of
    doctors in insertion order. */
module Directory {
  import opened Wrappers
  import opened Text
  import opened Models
  import opened Sorting

  const FetchFailed: string := "Error fetching doctors"
  const FetchOneFailed: string := "Error fetching doctor"
  const DefaultPage: int := 1
  const DefaultLimit: int := 10

  /** The body of a search request. Absent strings are empty; `page` and
      `limit` are absent unless given. */
  datatype SearchCriteria = SearchCriteria(
    speciality: string,
    location: string,
    consultationType: string,
    minPrice: string,
    maxPrice: string,
    languages: string,
    sortBy: string,
    sortOrder: string,
    page: Option<int>,
    limit: Option<int>,
    search: string)

  /** The requested page, 1 when absent. */
  function PageOf(c: SearchCriteria): int {
    if c.page.Some? then c.page.value else DefaultPage
  }

  /** The requested page size, 10 when absent. */
  function LimitOf(c: SearchCriteria): int {
    if c.limit.Some? then c.limit.value else DefaultLimit
  }

  /** The result of JavaScript's `Number()` on a price string. */
  datatype JsNumber = Finite(value: nat) | NaN

  function ToNumber(s: string): (n: JsNumber)
    ensures n.Finite? <==> ParseDecimal(s).Some?
    ensures n.Finite? ==> n.value == ParseDecimal(s).value
  {
    match ParseDecimal(s)
    case Some(v) => Finite(v)
    case None => NaN
  }

  /** The single `$or` clause of the filter: either the type clause or the free-text clause. */
  datatype AnyOf = TypeOrBoth(typeName: string) | TextInFields(pattern: string)

  /** The filter document: each part is present only when the request gave it. */
  datatype Filter = Filter(
    speciality: Option<string>,
    location: Option<string>,
    anyOf: Option<AnyOf>,
    minFee: Option<JsNumber>,
    maxFee: Option<JsNumber>,
    languages: Option<seq<string>>)

  /** The languages list of a request: split on commas, each part trimmed. */
  function LanguageList(languages: string): (r: seq<string>)
    ensures |r| >= 1
    ensures forall k :: 0 <= k < |r| ==> IsTrimmed(r[k])
  {
    TrimAll(Split(languages, ','))
  }

  /** The filter `getDoctors` builds. The free-text clause is written after
      the type clause into the same `$or` key, so it replaces it. */
  function BuildFilter(c: SearchCriteria): Filter {
    var typeClause := if c.consultationType != "" && c.consultationType != "all"
                      then Some(TypeOrBoth(c.consultationType)) else None;
    Filter(
      if c.speciality != "" then Some(c.speciality) else None,
      if c.location != "" then Some(c.location) else None,
      if c.search != "" then Some(TextInFields(c.search)) else typeClause,
      if c.minPrice != "" then Some(ToNumber(c.minPrice)) else None,
      if c.maxPrice != "" then Some(ToNumber(c.maxPrice)) else None,
      if c.languages != "" then Some(LanguageList(c.languages)) else None)
  }

  predicate EvalAnyOf(clause: AnyOf, d: Doctor) {
    match clause
    case TypeOrBoth(t) => ConsultationTypeName(d.consultationType) == t || d.consultationType == Both
    case TextInFields(p) =>
      ContainsIgnoreCase(d.name, p) || ContainsIgnoreCase(d.speciality, p) || ContainsIgnoreCase(d.location, p)
  }

  /** `$in` on an array field: some element of the doctor's list is in `wanted`. */
  predicate SharesLanguage(d: Doctor, wanted: seq<string>) {
    exists j :: 0 <= j < |d.languages| && d.languages[j] in wanted
  }

  /** Evaluation of a filter document against a doctor. A NaN bound matches
      nothing here; `Search` never gets that far, since the store refuses
      to cast it. */
  predicate Eval(f: Filter, d: Doctor) {
    && (f.speciality.Some? ==> ContainsIgnoreCase(d.speciality, f.speciality.value))
    && (f.location.Some? ==> ContainsIgnoreCase(d.location, f.location.value))
    && (f.anyOf.Some? ==> EvalAnyOf(f.anyOf.value, d))
    && (f.minFee.Some? ==> f.minFee.value.Finite? && d.consultationFee >= f.minFee.value.value)
    && (f.maxFee.Some? ==> f.maxFee.value.Finite? && d.consultationFee <= f.maxFee.value.value)
    && (f.languages.Some? ==> SharesLanguage(d, f.languages.value))
  }

  predicate Matches(c: SearchCriteria, d: Doctor) {
    Eval(BuildFilter(c), d)
  }

  /** The doctor speaks at least one of the `wanted` languages. */
  predicate SpeaksOneOf(d: Doctor, wanted: seq<string>) {
    exists j, k :: 0 <= j < |d.languages| && 0 <= k < |wanted| && d.languages[j] == wanted[k]
  }

  lemma SharesLanguageMeaning(d: Doctor, wanted: seq<string>)
    ensures SharesLanguage(d, wanted) <==> SpeaksOneOf(d, wanted)
  {
    if SharesLanguage(d, wanted) {
      var j :| 0 <= j < |d.languages| && d.languages[j] in wanted;
      var k :| 0 <= k < |wanted| && wanted[k] == d.languages[j];
    }
  }

  /** What a search means, criterion by criterion: speciality and location
      are case-insensitive substring tests; a free-text search asks for a
      match in name, speciality or location and drops the type criterion;
      without one, a type other than `all` admits that type and `both`;
      price bounds are inclusive and must be numbers; and the doctor must
      speak one of the comma-separated languages, each trimmed. */
  lemma {:induction false} FilterMeaning(c: SearchCriteria, d: Doctor)
    ensures Matches(c, d) <==>
      && (c.speciality != "" ==> ContainsIgnoreCase(d.speciality, c.speciality))
      && (c.location != "" ==> ContainsIgnoreCase(d.location, c.location))
      && (c.search != "" ==>
            ContainsIgnoreCase(d.name, c.search) || ContainsIgnoreCase(d.speciality, c.search)
            || ContainsIgnoreCase(d.location, c.search))
      && (c.search == "" && c.consultationType != "" && c.consultationType != "all" ==>
            d.consultationType == Both || ConsultationTypeName(d.consultationType) == c.consultationType)
      && (c.minPrice != "" ==> ParseDecimal(c.minPrice).Some? && d.consultationFee >= ParseDecimal(c.minPrice).value)
      && (c.maxPrice != "" ==> ParseDecimal(c.maxPrice).Some? && d.consultationFee <= ParseDecimal(c.maxPrice).value)
      && (c.languages != "" ==> SpeaksOneOf(d, TrimAll(Split(c.languages, ','))))
  {
    var f := BuildFilter(c);
    assert (f.anyOf.Some? ==> EvalAnyOf(f.anyOf.value, d)) <==>
      && (c.search != "" ==>
            ContainsIgnoreCase(d.name, c.search) || ContainsIgnoreCase(d.speciality, c.search)
            || ContainsIgnoreCase(d.location, c.search))
      && (c.search == "" && c.consultationType != "" && c.consultationType != "all" ==>
            d.consultationType == Both || ConsultationTypeName(d.consultationType) == c.consultationType);
    assert (f.minFee.Some? ==> f.minFee.value.Finite? && d.consultationFee >= f.minFee.value.value) <==>
      (c.minPrice != "" ==> ParseDecimal(c.minPrice).Some? && d.consultationFee >= ParseDecimal(c.minPrice).value);
    assert (f.maxFee.Some? ==> f.maxFee.value.Finite? && d.consultationFee <= f.maxFee.value.value) <==>
      (c.maxPrice != "" ==> ParseDecimal(c.maxPrice).Some? && d.consultationFee <= ParseDecimal(c.maxPrice).value);
    if c.languages != "" {
      SharesLanguageMeaning(d, LanguageList(c.languages));
    }
  }

  /** The languages criterion is one conjunct of a search: a doctor matches
      exactly when the doctor shares a listed language and matches the same
      criteria without languages. */
  lemma LanguagesApart(c: SearchCriteria, d: Doctor)
    requires c.languages != ""
    ensures Matches(c, d) <==> SharesLanguage(d, LanguageList(c.languages)) && Matches(c.(languages := ""), d)
  {
    assert BuildFilter(c.(languages := "")) == BuildFilter(c).(languages := None);
  }

  /** With a free-text search the requested consultation type has no effect. */
  lemma SearchOverridesType(c: SearchCriteria, d: Doctor, otherType: string)
    requires c.search != ""
    ensures Matches(c, d) <==> Matches(c.(consultationType := otherType), d)
  {
  }

  /** An online-only doctor is excluded by an `offline` filter unless a free-text search is present. */
  lemma TypeFilterExcludes(c: SearchCriteria, d: Doctor)
    requires c.consultationType == "offline" && d.consultationType == Online
    ensures Matches(c, d) ==> c.search != ""
  {
  }

  /** A bound equal to the fee admits the doctor: both bounds are inclusive. */
  lemma PriceBoundsInclusive(c: SearchCriteria, d: Doctor)
    requires d.consultationFee >= 0
    requires c.minPrice == DecimalString(d.consultationFee as nat)
    requires c.maxPrice == DecimalString(d.consultationFee as nat)
    ensures Eval(BuildFilter(c).(speciality := None, location := None, anyOf := None, languages := None), d)
  {
    DecimalRoundTrip(d.consultationFee as nat);
  }

  /** How many doctors of `directory` match. */
  function CountMatching(directory: seq<Doctor>, c: SearchCriteria): nat {
    if |directory| == 0 then 0
    else (if Matches(c, directory[0]) then 1 else 0) + CountMatching(directory[1..], c)
  }

  /** `Doctor.find(filter)` before sorting: the matching doctors, each as often as stored. */
  function SelectMatching(directory: seq<Doctor>, c: SearchCriteria): (r: seq<Doctor>)
    ensures forall d :: multiset(r)[d] == (if Matches(c, d) then multiset(directory)[d] else 0)
    ensures |r| == CountMatching(directory, c)
  {
    if |directory| == 0 then []
    else
      var rest := SelectMatching(directory[1..], c);
      assert directory == [directory[0]] + directory[1..];
      assert multiset(directory) == multiset{directory[0]} + multiset(directory[1..]);
      if Matches(c, directory[0]) then
        var r := [directory[0]] + rest;
        assert multiset(r) == multiset{directory[0]} + multiset(rest);
        r
      else rest
  }

  /** The sort document: one field and a direction. */
  datatype SortSpec = SortSpec(field: string, descending: bool)

  /** Without `sortBy`, newest first; with it, descending exactly when
      `sortOrder` is `desc` and ascending for any other value. */
  function BuildSort(sortBy: string, sortOrder: string): (r: SortSpec)
    ensures sortBy == "" ==> r == SortSpec("createdAt", true)
    ensures sortBy != "" ==> r.field == sortBy
    ensures sortBy != "" ==> (r.descending <==> sortOrder == "desc")
  {
    if sortBy != "" then SortSpec(sortBy, sortOrder == "desc") else SortSpec("createdAt", true)
  }

  /** The key of an optional string field: a missing value sorts before
      every string, as MongoDB puts null before strings. */
  function OptionalTextKey(v: Option<string>): SortKey {
    if v.Some? then SortKey(1.0, v.value) else SortKey(0.0, "")
  }

  /** The key of a doctor for a sort field. Ids are lower-case hexadecimal,
      so their text order is their byte order. No operation of the
      application updates a doctor, so `updatedAt` equals `createdAt`. The
      array fields and any field doctors do not have give every doctor the
      same key. */
  function FieldKey(field: string): Doctor -> SortKey {
    (d: Doctor) =>
      if field == "createdAt" || field == "updatedAt" then SortKey(d.createdAt as real, "")
      else if field == "_id" then SortKey(0.0, d.id)
      else if field == "consultationFee" then SortKey(d.consultationFee as real, "")
      else if field == "experience" then SortKey(d.experience as real, "")
      else if field == "rating" then SortKey(d.rating, "")
      else if field == "reviewCount" then SortKey(d.reviewCount as real, "")
      else if field == "name" then SortKey(0.0, d.name)
      else if field == "speciality" then SortKey(0.0, d.speciality)
      else if field == "location" then SortKey(0.0, d.location)
      else if field == "consultationType" then SortKey(0.0, ConsultationTypeName(d.consultationType))
      else if field == "profileImage" then SortKey(0.0, d.profileImage)
      else if field == "about" then OptionalTextKey(d.about)
      else if field == "education" then OptionalTextKey(d.education)
      else if field == "hospital" then OptionalTextKey(d.hospital)
      else SortKey(0.0, "")
  }

  /** `.sort(spec)`: a permutation in the requested direction. */
  function Order(s: seq<Doctor>, spec: SortSpec): (r: seq<Doctor>)
    ensures multiset(r) == multiset(s) && |r| == |s|
    ensures !spec.descending ==> SortedBy(r, FieldKey(spec.field))
    ensures spec.descending ==> SortedDescBy(r, FieldKey(spec.field))
  {
    var up := SortByKey(s, FieldKey(spec.field));
    if spec.descending then
      ReverseSorted(up, FieldKey(spec.field));
      Reverse(up)
    else up
  }

  /** `Math.ceil(total / limit)` for a positive limit. */
  function CeilDiv(total: nat, limit: int): (r: nat)
    requires limit > 0
    ensures r * limit >= total
    ensures (r - 1) * limit < total || r == 0
    ensures r == 0 <==> total == 0
  {
    var r := (total + limit - 1) / limit;
    assert (r - 1) * limit == r * limit - limit;
    r
  }

  /** The response of `getDoctors`: one page and its pagination block. */
  datatype Page = Page(doctors: seq<Doctor>, currentPage: int, totalPages: nat, totalDoctors: nat, hasMore: bool)

  function Min(a: int, b: int): int {
    if a <= b then a else b
  }

  /** The pagination block of page `page` of `total` results, `limit` per
      page: the page number echoed, at most `limit` doctors and no more than
      there are, the total, `totalPages` the least number of pages that
      holds them all, and `hasMore` exactly when a later page exists. */
  predicate PageShape(p: Page, page: int, limit: int, total: nat) {
    && p.currentPage == page
    && |p.doctors| <= limit
    && |p.doctors| <= p.totalDoctors
    && p.totalDoctors == total
    && p.totalPages * limit >= p.totalDoctors
    && (p.totalPages == 0 || (p.totalPages - 1) * limit < p.totalDoctors)
    && (p.hasMore <==> p.currentPage < p.totalPages)
  }

  /** How many of `n` ordered matches a page skips: `(page - 1) * limit`, or all of them. */
  function Offset(page: int, limit: int, n: nat): (k: nat)
    requires page >= 1 && limit > 0
    ensures k <= n
    ensures k == n || k == (page - 1) * limit
  {
    MulMonotone(0, page - 1, limit);
    Min((page - 1) * limit, n)
  }

  /** `.skip((page - 1) * limit).limit(limit)` over the ordered matches,
      with the pagination block computed from their number. */
  function Paginate(ordered: seq<Doctor>, page: int, limit: int): (p: Page)
    requires page >= 1 && limit > 0
    ensures PageShape(p, page, limit, |ordered|)
    ensures |p.doctors| == Min(limit, |ordered| - Offset(page, limit, |ordered|))
    ensures p.doctors == ordered[Offset(page, limit, |ordered|)..Offset(page, limit, |ordered|) + |p.doctors|]
  {
    var skip := (page - 1) * limit;
    assert skip >= 0 by { MulMonotone(0, page - 1, limit); }
    var lo := Offset(page, limit, |ordered|);
    var hi := Min(skip + limit, |ordered|);
    var slice := ordered[lo..hi];
    var total := |ordered|;
    var pages := CeilDiv(total, limit);
    PaginationArithmetic(page, limit, total, pages, |slice|);
    assert slice == ordered[lo..lo + |slice|];
    Page(slice, page, pages, total, skip + |slice| < total)
  }

  /** A given price bound that `Number()` turns into `NaN`: the store's
      number cast refuses it and the query fails. */
  predicate PriceRefused(c: SearchCriteria) {
    || (c.minPrice != "" && ToNumber(c.minPrice).NaN?)
    || (c.maxPrice != "" && ToNumber(c.maxPrice).NaN?)
  }

  /** `getDoctors`. A page below 1 gives a negative skip and a price bound
      that is not a number fails the cast; the store refuses both. */
  function Search(directory: seq<Doctor>, c: SearchCriteria): (r: Result<Page, Error>)
    requires c.limit.Some? ==> c.limit.value > 0
    ensures r.Err? <==> (c.page.Some? && c.page.value < 1) || PriceRefused(c)
    ensures r.Err? ==> r.error == StoreFailure(FetchFailed)
    ensures r.Ok? ==> PageShape(r.value, PageOf(c), LimitOf(c), CountMatching(directory, c))
  {
    var page := PageOf(c);
    if page < 1 || PriceRefused(c) then Err(StoreFailure(FetchFailed))
    else
      var ordered := Order(SelectMatching(directory, c), BuildSort(c.sortBy, c.sortOrder));
      assert |ordered| == CountMatching(directory, c);
      Ok(Paginate(ordered, page, LimitOf(c)))
  }

  /** A successful search is the page `Paginate` cuts from the ordered matches. */
  lemma SearchIsPaginate(directory: seq<Doctor>, c: SearchCriteria, ordered: seq<Doctor>)
    requires c.limit.Some? ==> c.limit.value > 0
    requires Search(directory, c).Ok?
    requires ordered == Order(SelectMatching(directory, c), BuildSort(c.sortBy, c.sortOrder))
    ensures Search(directory, c).value == Paginate(ordered, PageOf(c), LimitOf(c))
  {
  }

  /** The doctors of a page are a window of the ordered matches. */
  lemma PageWindow(ordered: seq<Doctor>, page: int, limit: nat) returns (lo: int, hi: int)
    requires page >= 1 && limit > 0
    ensures 0 <= lo <= hi <= |ordered| && Paginate(ordered, page, limit).doctors == ordered[lo..hi]
    ensures lo == Offset(page, limit, |ordered|) && hi == Min(lo + limit, |ordered|)
  {
    var p := Paginate(ordered, page, limit);
    lo := Offset(page, limit, |ordered|);
    hi := lo + |p.doctors|;
  }

  /** The doctors of a page are a window of the ordered matches. */
  lemma SearchWindow(directory: seq<Doctor>, c: SearchCriteria, ordered: seq<Doctor>) returns (lo: int, hi: int)
    requires c.limit.Some? ==> c.limit.value > 0
    requires Search(directory, c).Ok?
    requires ordered == Order(SelectMatching(directory, c), BuildSort(c.sortBy, c.sortOrder))
    ensures 0 <= lo <= hi <= |ordered| && Search(directory, c).value.doctors == ordered[lo..hi]
    ensures lo == Offset(PageOf(c), LimitOf(c), |ordered|) && hi == Min(lo + LimitOf(c), |ordered|)
  {
    SearchIsPaginate(directory, c, ordered);
    lo, hi := PageWindow(ordered, PageOf(c), LimitOf(c));
  }

  /** A page holds `limit` doctors, or what is left of the matches after
      the skipped ones when fewer remain. */
  lemma SearchPageLength(directory: seq<Doctor>, c: SearchCriteria)
    requires c.limit.Some? ==> c.limit.value > 0
    requires Search(directory, c).Ok?
    ensures var n := CountMatching(directory, c);
            |Search(directory, c).value.doctors| == Min(LimitOf(c), n - Offset(PageOf(c), LimitOf(c), n))
  {
    var ordered := Order(SelectMatching(directory, c), BuildSort(c.sortBy, c.sortOrder));
    var lo, hi := SearchWindow(directory, c, ordered);
    WindowLength(lo, LimitOf(c), |ordered|);
  }

  /** A window of at most `limit` entries starting at `lo`. */
  lemma WindowLength(lo: int, limit: int, n: int)
    requires 0 <= lo <= n
    ensures Min(lo + limit, n) - lo == Min(limit, n - lo)
  {
  }

  /** Every doctor on a page is a stored doctor matching the filter. */
  lemma SearchPageMatches(directory: seq<Doctor>, c: SearchCriteria)
    requires c.limit.Some? ==> c.limit.value > 0
    requires Search(directory, c).Ok?
    ensures forall d :: d in Search(directory, c).value.doctors ==> d in directory && Matches(c, d)
  {
    var ordered := Order(SelectMatching(directory, c), BuildSort(c.sortBy, c.sortOrder));
    var lo, hi := SearchWindow(directory, c, ordered);
    WindowOfMatching(directory, c, ordered, lo, hi);
  }

  /** A page is in the requested order. */
  lemma SearchPageOrdered(directory: seq<Doctor>, c: SearchCriteria)
    requires c.limit.Some? ==> c.limit.value > 0
    requires Search(directory, c).Ok?
    ensures var spec := BuildSort(c.sortBy, c.sortOrder);
            && (!spec.descending ==> SortedBy(Search(directory, c).value.doctors, FieldKey(spec.field)))
            && (spec.descending ==> SortedDescBy(Search(directory, c).value.doctors, FieldKey(spec.field)))
  {
    var ordered := Order(SelectMatching(directory, c), BuildSort(c.sortBy, c.sortOrder));
    var lo, hi := SearchWindow(directory, c, ordered);
    WindowKeepsOrder(ordered, lo, hi, BuildSort(c.sortBy, c.sortOrder));
  }

  /** A window of a permutation of the matching doctors holds only matching doctors of the directory. */
  lemma WindowOfMatching(directory: seq<Doctor>, c: SearchCriteria, ordered: seq<Doctor>, lo: int, hi: int)
    requires multiset(ordered) == multiset(SelectMatching(directory, c))
    requires 0 <= lo <= hi <= |ordered|
    ensures forall d :: d in ordered[lo..hi] ==> d in directory && Matches(c, d)
  {
    forall d | d in ordered[lo..hi] ensures d in directory && Matches(c, d) {
      assert d in multiset(ordered);
    }
  }

  /** A window of a sorted sequence is sorted the same way. */
  lemma WindowKeepsOrder(ordered: seq<Doctor>, lo: int, hi: int, spec: SortSpec)
    requires 0 <= lo <= hi <= |ordered|
    requires !spec.descending ==> SortedBy(ordered, FieldKey(spec.field))
    requires spec.descending ==> SortedDescBy(ordered, FieldKey(spec.field))
    ensures !spec.descending ==> SortedBy(ordered[lo..hi], FieldKey(spec.field))
    ensures spec.descending ==> SortedDescBy(ordered[lo..hi], FieldKey(spec.field))
  {
    var w := ordered[lo..hi];
    assert forall i :: 0 <= i < |w| ==> w[i] == ordered[lo + i];
  }

  /** The page's `hasMore` flag agrees with the page count. */
  lemma PaginationArithmetic(page: int, limit: int, total: nat, pages: nat, len: nat)
    requires page >= 1 && limit > 0
    requires pages * limit >= total && (pages == 0 || (pages - 1) * limit < total)
    requires len == Min((page - 1) * limit + limit, total) - Min((page - 1) * limit, total)
    ensures (page - 1) * limit + len < total <==> page < pages
  {
    var skip := (page - 1) * limit;
    assert page * limit == skip + limit;
    if page < pages {
      MulMonotone(page, pages - 1, limit);
    } else {
      MulMonotone(pages, page, limit);
    }
  }

  lemma MulMonotone(a: int, b: int, k: int)
    requires a <= b && k > 0
    ensures a * k <= b * k
  {
    assert b * k - a * k == (b - a) * k;
  }

  /** `getDoctorById`: a malformed id fails the store query; an unknown id is not found. */
  function GetDoctorById(directory: seq<Doctor>, id: string): (r: Result<Doctor, Error>)
    ensures !IsObjectId(id) ==> r == Err(StoreFailure(FetchOneFailed))
    ensures IsObjectId(id) ==> (r.Ok? <==> HasDoctor(directory, ToLower(id)))
    ensures IsObjectId(id) && r.Err? ==> r.error == NotFound("Doctor not found")
    ensures r.Ok? ==> r.value in directory && r.value.id == ToLower(id)
  {
    match CastObjectId(id)
    case None => Err(StoreFailure(FetchOneFailed))
    case Some(key) =>
      var found := FindDoctor(directory, key);
      if found.None? then Err(NotFound("Doctor not found")) else Ok(found.value)
  }

  /** The speciality of every doctor, in directory order. */
  function SpecialityColumn(directory: seq<Doctor>): (r: seq<string>)
    ensures |r| == |directory| && forall k :: 0 <= k < |r| ==> r[k] == directory[k].speciality
  {
    seq(|directory|, k requires 0 <= k < |directory| => directory[k].speciality)
  }

  /** The location of every doctor, in directory order. */
  function LocationColumn(directory: seq<Doctor>): (r: seq<string>)
    ensures |r| == |directory| && forall k :: 0 <= k < |r| ==> r[k] == directory[k].location
  {
    seq(|directory|, k requires 0 <= k < |directory| => directory[k].location)
  }

  /** Every language of every doctor, concatenated in directory order. */
  function AllLanguages(directory: seq<Doctor>): (r: seq<string>)
    ensures forall x :: x in r <==> exists k :: 0 <= k < |directory| && x in directory[k].languages
  {
    if |directory| == 0 then []
    else
      var rest := AllLanguages(directory[1..]);
      assert forall x :: (exists k :: 0 <= k < |directory| && x in directory[k].languages) <==>
               x in directory[0].languages || (exists k :: 0 <= k < |directory| - 1 && x in directory[1..][k].languages) by {
        forall x | exists k :: 0 <= k < |directory| && x in directory[k].languages
          ensures x in directory[0].languages || (exists k :: 0 <= k < |directory| - 1 && x in directory[1..][k].languages) {
          var k :| 0 <= k < |directory| && x in directory[k].languages;
          if k > 0 { assert directory[1..][k - 1] == directory[k]; }
        }
      }
      directory[0].languages + rest
  }

  /** `getSpecialities`: each stored speciality once, in ascending order. */
  function Specialities(directory: seq<Doctor>): (r: seq<string>)
    ensures forall x :: x in r <==> exists k :: 0 <= k < |directory| && directory[k].speciality == x
    ensures forall i, j :: 0 <= i < j < |r| ==> LexLt(r[i], r[j])
  {
    var col := SpecialityColumn(directory);
    assert forall x :: x in col <==> exists k :: 0 <= k < |directory| && directory[k].speciality == x by {
      forall x | exists k :: 0 <= k < |directory| && directory[k].speciality == x ensures x in col {
        var k :| 0 <= k < |directory| && directory[k].speciality == x;
        assert col[k] == x;
      }
    }
    SortedDistinct(col)
  }

  /** `getLocations`: each stored location once, in ascending order. */
  function Locations(directory: seq<Doctor>): (r: seq<string>)
    ensures forall x :: x in r <==> exists k :: 0 <= k < |directory| && directory[k].location == x
    ensures forall i, j :: 0 <= i < j < |r| ==> LexLt(r[i], r[j])
  {
    var col := LocationColumn(directory);
    assert forall x :: x in col <==> exists k :: 0 <= k < |directory| && directory[k].location == x by {
      forall x | exists k :: 0 <= k < |directory| && directory[k].location == x ensures x in col {
        var k :| 0 <= k < |directory| && directory[k].location == x;
        assert col[k] == x;
      }
    }
    SortedDistinct(col)
  }

  /** `getLanguages`: the union of all doctors' languages, each once, in ascending order. */
  function Languages(directory: seq<Doctor>): (r: seq<string>)
    ensures forall x :: x in r <==> exists k :: 0 <= k < |directory| && x in directory[k].languages
    ensures forall i, j :: 0 <= i < j < |r| ==> LexLt(r[i], r[j])
  {
    SortedDistinct(AllLanguages(directory))
  }

  /** The facet lists never repeat an entry. */
  lemma FacetsDistinct(directory: seq<Doctor>)
    ensures forall i, j :: 0 <= i < j < |Languages(directory)| ==> Languages(directory)[i] != Languages(directory)[j]
    ensures forall i, j :: 0 <= i < j < |Specialities(directory)| ==> Specialities(directory)[i] != Specialities(directory)[j]
    ensures forall i, j :: 0 <= i < j < |Locations(directory)| ==> Locations(directory)[i] != Locations(directory)[j]
  {
  }
}

=== FILE: filters.dfy ===
/** The search page's client-side state: the filter record and the sort
    choice, the sidebar's handlers (list toggles, the price radio group, the
    clear-all test), the page's handlers (merge, clear, sort), and the query
    object the page sends to the search endpoint. */
module Filters {
  import opened Wrappers
  import opened Text
  import opened Models
  import opened Directory

  /** The filter record of the search page. */
  datatype FilterState = FilterState(
    speciality: string,
    location: string,
    consultationType: string,
    specialities: seq<string>,
    languages: seq<string>,
    minPrice: string,
    maxPrice: string)

  datatype SortState = SortState(sortBy: string, sortOrder: string)

  /** A partial filter record: the keys a handler passes to `handleFilterChange`. */
  datatype FilterPatch = FilterPatch(
    speciality: Option<string>,
    location: Option<string>,
    consultationType: Option<string>,
    specialities: Option<seq<string>>,
    languages: Option<seq<string>>,
    minPrice: Option<string>,
    maxPrice: Option<string>)

  const NoChange: FilterPatch := FilterPatch(None, None, None, None, None, None, None)

  /** `handleFilterChange`: `{...prev, ...patch}`. */
  function ApplyPatch(f: FilterState, p: FilterPatch): (r: FilterState)
    ensures r.speciality == (if p.speciality.Some? then p.speciality.value else f.speciality)
    ensures r.location == (if p.location.Some? then p.location.value else f.location)
    ensures r.consultationType == (if p.consultationType.Some? then p.consultationType.value else f.consultationType)
    ensures r.specialities == (if p.specialities.Some? then p.specialities.value else f.specialities)
    ensures r.languages == (if p.languages.Some? then p.languages.value else f.languages)
    ensures r.minPrice == (if p.minPrice.Some? then p.minPrice.value else f.minPrice)
    ensures r.maxPrice == (if p.maxPrice.Some? then p.maxPrice.value else f.maxPrice)
  {
    FilterState(
      if p.speciality.Some? then p.speciality.value else f.speciality,
      if p.location.Some? then p.location.value else f.location,
      if p.consultationType.Some? then p.consultationType.value else f.consultationType,
      if p.specialities.Some? then p.specialities.value else f.specialities,
      if p.languages.Some? then p.languages.value else f.languages,
      if p.minPrice.Some? then p.minPrice.value else f.minPrice,
      if p.maxPrice.Some? then p.maxPrice.value else f.maxPrice)
  }

  /** Merging the same keys twice is merging them once, and merging no keys changes nothing. */
  lemma ApplyPatchIdempotent(f: FilterState, p: FilterPatch)
    ensures ApplyPatch(ApplyPatch(f, p), p) == ApplyPatch(f, p)
    ensures ApplyPatch(f, NoChange) == f
  {
  }

  /** `items.filter(y => y !== x)`. */
  function Without(items: seq<string>, x: string): (r: seq<string>)
    ensures x !in r
    ensures forall y :: y != x ==> (y in r <==> y in items)
    ensures |r| <= |items|
  {
    if |items| == 0 then []
    else if items[0] == x then Without(items[1..], x)
    else [items[0]] + Without(items[1..], x)
  }

  /** Removing a value that is absent leaves the list as it was. */
  lemma {:induction false} WithoutAbsent(items: seq<string>, x: string)
    requires x !in items
    ensures Without(items, x) == items
    decreases |items|
  {
    if |items| > 0 {
      WithoutAbsent(items[1..], x);
      assert [items[0]] + items[1..] == items;
    }
  }

  lemma {:induction false} WithoutAppended(items: seq<string>, x: string)
    requires x !in items
    ensures Without(items + [x], x) == items
    decreases |items|
  {
    if |items| == 0 {
      assert Without([x], x) == Without([], x);
    } else {
      assert (items + [x])[1..] == items[1..] + [x];
      WithoutAppended(items[1..], x);
      assert [items[0]] + items[1..] == items;
    }
  }

  /** The checkbox handlers: a present value is removed, every occurrence
      of it; an absent one is appended at the end. */
  function Toggle(items: seq<string>, x: string): (r: seq<string>)
    ensures x in r <==> x !in items
    ensures forall y :: y != x ==> (y in r <==> y in items)
    ensures x !in items ==> |r| == |items| + 1 && r[..|items|] == items && r[|items|] == x
  {
    if x in items then Without(items, x) else items + [x]
  }

  /** Ticking an unticked box and then unticking it restores the list. */
  lemma ToggleTwiceRestores(items: seq<string>, x: string)
    requires x !in items
    ensures Toggle(Toggle(items, x), x) == items
  {
    WithoutAppended(items, x);
  }

  /** `handleSpecialityChange`. */
  function SpecialityToggled(f: FilterState, speciality: string): (r: FilterState)
    ensures r.(specialities := f.specialities) == f
    ensures speciality in r.specialities <==> speciality !in f.specialities
    ensures forall y :: y != speciality ==> (y in r.specialities <==> y in f.specialities)
  {
    ApplyPatch(f, NoChange.(specialities := Some(Toggle(f.specialities, speciality))))
  }

  /** `handleLanguageChange`. */
  function LanguageToggled(f: FilterState, language: string): (r: FilterState)
    ensures r.(languages := f.languages) == f
    ensures language in r.languages <==> language !in f.languages
    ensures forall y :: y != language ==> (y in r.languages <==> y in f.languages)
  {
    ApplyPatch(f, NoChange.(languages := Some(Toggle(f.languages, language))))
  }

  /** The values of the price radio group. */
  const PriceRanges: seq<string> := ["", "0-500", "500-1000", "1000-1500", "1500-2000", "2000+"]

  /** `"a-b".split('-')` is `[a, b]` when neither bound holds a dash. */
  lemma SplitRange(low: string, high: string)
    requires '-' !in low && '-' !in high
    ensures Split(low + "-" + high, '-') == [low, high]
  {
    SplitAfterPiece(low, '-', high);
    SplitWithoutSeparator(high, '-');
  }

  /** Each bounded price range splits into its two bounds. */
  lemma BoundedRangeSplits(range: string)
    requires range in PriceRanges && range != "" && range != "2000+"
    ensures |Split(range, '-')| == 2 && Split(range, '-')[0] + "-" + Split(range, '-')[1] == range
  {
    assert range == "0-500" || range == "500-1000" || range == "1000-1500" || range == "1500-2000";
    if range == "0-500" {
      assert range == "0" + "-" + "500";
      SplitRange("0", "500");
    } else if range == "500-1000" {
      assert range == "500" + "-" + "1000";
      SplitRange("500", "1000");
    } else if range == "1000-1500" {
      assert range == "1000" + "-" + "1500";
      SplitRange("1000", "1500");
    } else {
      assert range == "1500" + "-" + "2000";
      SplitRange("1500", "2000");
    }
  }

  /** `handlePriceChange`: the keys it passes on for a price radio value. */
  function PriceChange(range: string): (p: FilterPatch)
    requires range in PriceRanges
    ensures p.minPrice.Some? && p.maxPrice.Some?
    ensures p == NoChange.(minPrice := p.minPrice, maxPrice := p.maxPrice)
    ensures range == "" <==> p.minPrice.value == "" && p.maxPrice.value == ""
    ensures range == "2000+" ==> p.minPrice.value == "2000" && p.maxPrice.value == ""
    ensures range != "" && range != "2000+" ==> p.minPrice.value + "-" + p.maxPrice.value == range
  {
    if range == "" then NoChange.(minPrice := Some(""), maxPrice := Some(""))
    else if range == "2000+" then NoChange.(minPrice := Some("2000"), maxPrice := Some(""))
    else
      BoundedRangeSplits(range);
      var parts := Split(range, '-');
      NoChange.(minPrice := Some(parts[0]), maxPrice := Some(parts[1]))
  }

  /** The price radio's `checked` expression as written: its special case
      compares against `300+`, a value the group does not have. */
  predicate PriceRadioCheckedAsWritten(value: string, f: FilterState) {
    if value == "" then f.minPrice == "" && f.maxPrice == ""
    else if value == "300+" then f.minPrice == "2000" && f.maxPrice == ""
    else f.minPrice + "-" + f.maxPrice == value
  }

  /** The `checked` expression with the special case on the group's own `2000+` value. */
  predicate PriceRadioChecked(value: string, f: FilterState) {
    if value == "" then f.minPrice == "" && f.maxPrice == ""
    else if value == "2000+" then f.minPrice == "2000" && f.maxPrice == ""
    else f.minPrice + "-" + f.maxPrice == value
  }

  /** As written, the `2000+` radio is never checked, whatever the state;
      in particular not after it has been chosen. */
  lemma TwoThousandPlusNeverChecked(f: FilterState)
    ensures !PriceRadioCheckedAsWritten("2000+", f)
    ensures !PriceRadioCheckedAsWritten("2000+", ApplyPatch(f, PriceChange("2000+")))
  {
    var s := f.minPrice + "-" + f.maxPrice;
    assert s[|f.minPrice|] == '-';
    assert '-' !in "2000+";
  }

  /** With the corrected expression, choosing a price radio checks exactly that radio. */
  lemma PriceRadioRoundTrip(f: FilterState, range: string, other: string)
    requires range in PriceRanges && other in PriceRanges
    ensures PriceRadioChecked(other, ApplyPatch(f, PriceChange(range))) <==> other == range
  {
    var g := ApplyPatch(f, PriceChange(range));
    var s := g.minPrice + "-" + g.maxPrice;
    assert |s| == |g.minPrice| + 1 + |g.maxPrice| && s[|g.minPrice|] == '-';
    if other != "" && other != "2000+" && range == "" {
      assert s == "-";
    }
    if other != "" && other != "2000+" && range == "2000+" {
      assert s == "2000-";
    }
  }

  /** `hasActiveFilters`: location and the single speciality string are not looked at. */
  predicate HasActiveFilters(f: FilterState) {
    f.consultationType != "all" || |f.specialities| > 0 || |f.languages| > 0 || f.minPrice != "" || f.maxPrice != ""
  }

  /** The record `handleClearFilters` installs. */
  const ClearedFilters: FilterState := FilterState("", "", "all", [], [], "", "")

  /** `handleClearFilters`: every filter empty, type `all`, and no sort field with ascending order. */
  function ClearAll(): (r: (FilterState, SortState))
    ensures !HasActiveFilters(r.0) && r.0.speciality == "" && r.0.location == ""
    ensures r.1.sortBy == "" && r.1.sortOrder == "asc"
  {
    (ClearedFilters, SortState("", "asc"))
  }

  /** The filters are active exactly when the record differs from the cleared
      one somewhere other than in location and the single speciality. */
  lemma ActiveIffNotCleared(f: FilterState)
    ensures HasActiveFilters(f) <==> f.(speciality := "", location := "") != ClearedFilters
  {
    if !HasActiveFilters(f) {
      assert f.specialities == [] && f.languages == [];
    }
  }

  /** `handleSort`: the current field flips between ascending and descending;
      another field is selected in ascending order. */
  function HandleSort(s: SortState, field: string): (r: SortState)
    ensures r.sortBy == field
    ensures s.sortBy != field ==> r.sortOrder == "asc"
    ensures s.sortBy == field && s.sortOrder == "asc" ==> r.sortOrder == "desc"
    ensures s.sortBy == field && s.sortOrder != "asc" ==> r.sortOrder == "asc"
  {
    if s.sortBy == field then SortState(s.sortBy, if s.sortOrder == "asc" then "desc" else "asc")
    else SortState(field, "asc")
  }

  /** Sorting twice on the current field restores the order. */
  lemma SortTwiceRestores(s: SortState)
    requires s.sortOrder == "asc" || s.sortOrder == "desc"
    ensures HandleSort(HandleSort(s, s.sortBy), s.sortBy) == s
  {
  }

  /** The initial record built from the page's `speciality` and `location` URL parameters. */
  function InitialFilters(specialityParam: Option<string>, locationParam: Option<string>): (r: FilterState)
    ensures r.consultationType == "all" && r.languages == [] && r.minPrice == "" && r.maxPrice == ""
    ensures HasActiveFilters(r) <==> specialityParam.Some? && specialityParam.value != ""
  {
    var speciality := if specialityParam.Some? then specialityParam.value else "";
    var location := if locationParam.Some? then locationParam.value else "";
    FilterState(speciality, location, "all", if speciality != "" then [speciality] else [], [], "", "")
  }

  /** The query object the page sends: only the keys whose values are set,
      an absent key being an empty string on the server side. */
  function BuildQuery(f: FilterState, s: SortState): (q: SearchCriteria)
    ensures q.speciality == (if |f.specialities| > 0 then f.specialities[0] else f.speciality)
    ensures q.location == f.location
    ensures q.consultationType == (if f.consultationType == "all" then "" else f.consultationType)
    ensures q.minPrice == f.minPrice && q.maxPrice == f.maxPrice
    ensures q.languages == "" <==> f.languages == [] || (|f.languages| == 1 && f.languages[0] == "")
    ensures s.sortBy == "" ==> q.sortBy == "" && q.sortOrder == ""
    ensures s.sortBy != "" ==> q.sortBy == s.sortBy && q.sortOrder == s.sortOrder
    ensures q.search == "" && q.page.None? && q.limit.None?
  {
    var languages := if |f.languages| > 0 then Join(f.languages, ',') else "";
    assert |f.languages| > 1 ==> |languages| > 0 by {
      if |f.languages| > 1 { assert languages == f.languages[0] + [','] + Join(f.languages[1..], ','); }
    }
    SearchCriteria(
      if |f.specialities| > 0 then f.specialities[0] else f.speciality,
      f.location,
      if f.consultationType != "all" then f.consultationType else "",
      f.minPrice,
      f.maxPrice,
      languages,
      s.sortBy,
      if s.sortBy != "" then s.sortOrder else "",
      None,
      None,
      "")
  }

  /** A list of languages survives the trip through the query: the server's
      split-and-trim gives back the list the page joined, provided no entry
      contains a comma or has whitespace at either end. */
  lemma LanguagesRoundTrip(f: FilterState, s: SortState)
    requires |f.languages| > 0
    requires forall k :: 0 <= k < |f.languages| ==> ',' !in f.languages[k] && IsTrimmed(f.languages[k])
    ensures LanguageList(Join(f.languages, ',')) == f.languages
  {
    SplitJoin(f.languages, ',');
    forall k | 0 <= k < |f.languages| ensures Trim(f.languages[k]) == f.languages[k] {
      TrimOfTrimmed(f.languages[k]);
    }
  }

  /** With such a list, the server admits a doctor exactly when the doctor
      speaks one of the ticked languages and passes the other criteria,
      those the same query without languages asks for. */
  lemma LanguageFilterEndToEnd(f: FilterState, s: SortState, d: Doctor)
    requires |f.languages| > 0 && f.languages != [""]
    requires forall k :: 0 <= k < |f.languages| ==> ',' !in f.languages[k] && IsTrimmed(f.languages[k])
    ensures BuildFilter(BuildQuery(f, s)).languages == Some(f.languages)
    ensures Matches(BuildQuery(f, s), d) <==>
              SpeaksOneOf(d, f.languages) && Matches(BuildQuery(f.(languages := []), s), d)
  {
    LanguagesRoundTrip(f, s);
    SharesLanguageMeaning(d, f.languages);
    QueryWithoutLanguages(f, s);
    var q := BuildQuery(f, s);
    assert q.languages == Join(f.languages, ',');
    LanguagesApart(q, d);
  }

  /** Unticking every language changes only the query's languages key. */
  lemma QueryWithoutLanguages(f: FilterState, s: SortState)
    ensures BuildQuery(f.(languages := []), s) == BuildQuery(f, s).(languages := "")
  {
  }

  /** The page never sends a free-text search, so a type other than `all`
      always restricts the results to that type and `both`. */
  lemma TypeFilterEndToEnd(f: FilterState, s: SortState, d: Doctor)
    requires f.consultationType != "all" && f.consultationType != ""
    requires Matches(BuildQuery(f, s), d)
    ensures d.consultationType == Both || ConsultationTypeName(d.consultationType) == f.consultationType
  {
  }
}

=== FILE: ledger.dfy ===
/** The appointment ledger: booking a slot, listing a doctor's appointments,
    the booked-slot query behind the booking form, and status updates. The
    appointment collection is a sequence in insertion order, and each
    operation is a pure function from the current sequence to a result and
    the next sequence. Calls are sequential. */
module Ledger {
  import opened Wrappers
  import opened Text
  import opened Calendar
  import opened Models
  import opened Sorting

  const DoctorNotFound: string := "Doctor not found"
  const SlotTaken: string := "This time slot is already booked. Please choose another slot."
  const CreateFailed: string := "Error creating appointment"
  const DateRequired: string := "Date is required"
  const SlotsFailed: string := "Error fetching booked slots"
  const ListFailed: string := "Error fetching appointments"
  const InvalidStatus: string := "Invalid status"
  const AppointmentNotFound: string := "Appointment not found"
  const UpdateFailed: string := "Error updating appointment"

  /** The message naming the only consultation type a doctor offers. */
  function OnlyOffers(t: ConsultationType): string {
    "This doctor only offers " + ConsultationTypeName(t) + " consultations"
  }

  /** The fields of a booking request, after request validation and date parsing. */
  datatype BookingRequest = BookingRequest(
    doctorId: string,
    patientName: string,
    patientEmail: string,
    patientPhone: string,
    date: Instant,
    time: string,
    consultationType: string,
    notes: Option<string>)

  /** An operation's result together with the ledger after it. */
  datatype Step<T> = Step(result: Result<T, Error>, ledger: seq<Appointment>)

  /** The controller's compatibility check: a doctor offering both types
      accepts any request; otherwise the requested type must be the offered one. */
  predicate TypeAccepted(offered: ConsultationType, requested: string) {
    offered == Both || ConsultationTypeName(offered) == requested
  }

  /** `a` holds the slot (doctor, instant, time): it is pending or confirmed for it. */
  predicate Holds(a: Appointment, doctorId: ObjectId, date: Instant, time: string) {
    a.doctorId == doctorId && a.date == date && a.time == time && IsActive(a.status)
  }

  predicate SlotHeld(ledger: seq<Appointment>, doctorId: ObjectId, date: Instant, time: string) {
    exists k :: 0 <= k < |ledger| && Holds(ledger[k], doctorId, date, time)
  }

  /** `Appointment.findOne` on the slot: is some active appointment holding it? */
  function SlotHeldScan(ledger: seq<Appointment>, doctorId: ObjectId, date: Instant, time: string): (held: bool)
    ensures held <==> SlotHeld(ledger, doctorId, date, time)
  {
    if |ledger| == 0 then false
    else if Holds(ledger[0], doctorId, date, time) then true
    else
      var held := SlotHeldScan(ledger[1..], doctorId, date, time);
      assert SlotHeld(ledger, doctorId, date, time) <==> SlotHeld(ledger[1..], doctorId, date, time) by {
        if SlotHeld(ledger, doctorId, date, time) {
          var k :| 0 <= k < |ledger| && Holds(ledger[k], doctorId, date, time);
          assert Holds(ledger[1..][k - 1], doctorId, date, time);
        }
        if SlotHeld(ledger[1..], doctorId, date, time) {
          var k :| 0 <= k < |ledger| - 1 && Holds(ledger[1..][k], doctorId, date, time);
          assert Holds(ledger[k + 1], doctorId, date, time);
        }
      }
      held
  }

  /** The fields handed to the appointment schema on creation; the status is left to its default. */
  function NewAppointmentInput(doctorId: ObjectId, req: BookingRequest): AppointmentInput {
    AppointmentInput(
      Some(doctorId), Some(req.patientName), Some(req.patientEmail), Some(req.patientPhone),
      Some(req.date), Some(req.time), Some(req.consultationType), None, req.notes)
  }

  /** The request's own fields satisfy the appointment schema: a name, an
      e-mail and a phone that do not trim to nothing, a time, and a single
      consultation type. */
  predicate FieldsAccepted(req: BookingRequest) {
    && Trim(req.patientName) != [] && Trim(req.patientEmail) != [] && Trim(req.patientPhone) != []
    && req.time != []
    && (req.consultationType == "online" || req.consultationType == "offline")
  }

  /** Every check of `createAppointment` passes: the id is an object id of a
      stored doctor who offers the requested type, the slot is free, and the
      schema accepts the fields. */
  predicate Bookable(directory: seq<Doctor>, ledger: seq<Appointment>, req: BookingRequest) {
    && IsObjectId(req.doctorId)
    && HasDoctor(directory, ToLower(req.doctorId))
    && TypeAccepted(FindDoctor(directory, ToLower(req.doctorId)).value.consultationType, req.consultationType)
    && !SlotHeld(ledger, ToLower(req.doctorId), req.date, req.time)
    && FieldsAccepted(req)
  }

  /** The schema judges the record a booking builds by the request's fields alone. */
  lemma NewInputAccepted(doctorId: ObjectId, req: BookingRequest)
    requires IsCanonicalId(doctorId)
    ensures AppointmentInputAccepted(NewAppointmentInput(doctorId, req)) <==> FieldsAccepted(req)
  {
  }

  /** The error a booking meets, if any, in the order the controller checks:
      the doctor id must cast, the doctor must exist, the consultation type must
      be offered, the slot must be free, and the record must satisfy the schema. */
  function BookingError(directory: seq<Doctor>, ledger: seq<Appointment>, req: BookingRequest): Option<Error> {
    match CastObjectId(req.doctorId)
    case None => Some(StoreFailure(CreateFailed))
    case Some(id) =>
      match FindDoctor(directory, id)
      case None => Some(NotFound(DoctorNotFound))
      case Some(doctor) =>
        if !TypeAccepted(doctor.consultationType, req.consultationType) then
          Some(InvalidRequest(OnlyOffers(doctor.consultationType)))
        else if SlotHeldScan(ledger, id, req.date, req.time) then Some(Conflict(SlotTaken))
        else if !AppointmentInputAccepted(NewAppointmentInput(id, req)) then Some(StoreFailure(CreateFailed))
        else None
  }

  /** `createAppointment` after validation. */
  function Book(directory: seq<Doctor>, ledger: seq<Appointment>, req: BookingRequest, newId: ObjectId): (r: Step<Appointment>)
    requires IsCanonicalId(newId)
    // every failure leaves the ledger as it was, and none is a request-validation failure
    ensures r.result.Err? ==> r.ledger == ledger && !r.result.error.ValidationFailed?
    // an id that is not an object id fails the store query
    ensures !IsObjectId(req.doctorId) ==> r.result == Err(StoreFailure(CreateFailed))
    // an unknown doctor is reported as not found
    ensures IsObjectId(req.doctorId) ==>
              (r.result == Err(NotFound(DoctorNotFound)) <==> !HasDoctor(directory, ToLower(req.doctorId)))
    // a known doctor that does not offer the requested type is reported, naming the offered type
    ensures forall d :: IsObjectId(req.doctorId) && FindDoctor(directory, ToLower(req.doctorId)) == Some(d) ==>
              (!TypeAccepted(d.consultationType, req.consultationType) <==>
               r.result == Err(InvalidRequest(OnlyOffers(d.consultationType))))
    // past those checks, a held slot is a conflict
    ensures forall d :: IsObjectId(req.doctorId) && FindDoctor(directory, ToLower(req.doctorId)) == Some(d)
                        && TypeAccepted(d.consultationType, req.consultationType) ==>
              (SlotHeld(ledger, ToLower(req.doctorId), req.date, req.time) <==> r.result == Err(Conflict(SlotTaken)))
    // a booking succeeds exactly when every check passes
    ensures r.result.Ok? <==> Bookable(directory, ledger, req)
    // the store's own refusal comes from a malformed id or from fields the schema rejects
    ensures r.result == Err(StoreFailure(CreateFailed)) ==> !IsObjectId(req.doctorId) || !FieldsAccepted(req)
    // a success appends exactly one new pending appointment carrying the request
    ensures r.result.Ok? ==> r.ledger == ledger + [r.result.value]
    ensures r.result.Ok? ==>
              var a := r.result.value;
              && a.id == newId && a.status == Pending
              && HasDoctor(directory, a.doctorId) && a.doctorId == ToLower(req.doctorId)
              && a.date == req.date && a.time == req.time
              && ConsultationTypeName(a.consultationType) == req.consultationType
              && a.patientName == Trim(req.patientName) && a.patientPhone == Trim(req.patientPhone)
              && a.patientEmail == NormalizeEmail(req.patientEmail)
              && a.notes == TrimOption(req.notes)
              && AppointmentWellFormed(a)
              && !SlotHeld(ledger, a.doctorId, a.date, a.time)
  {
    match BookingError(directory, ledger, req)
    case Some(e) => Step(Err(e), ledger)
    case None =>
      var id := CastObjectId(req.doctorId).value;
      NewInputAccepted(id, req);
      var a := ApplyAppointmentSchema(newId, NewAppointmentInput(id, req)).value;
      Step(Ok(a), ledger + [a])
  }

  /** The appointment a successful booking appends: pending, of a single
      consultation type, at the requested instant, with the name and notes trimmed. */
  lemma BookSuccess(directory: seq<Doctor>, ledger: seq<Appointment>, req: BookingRequest, newId: ObjectId)
    requires IsCanonicalId(newId)
    requires Book(directory, ledger, req, newId).result.Ok?
    ensures var r := Book(directory, ledger, req, newId);
            && r.ledger == ledger + [r.result.value]
            && r.result.value.patientName == Trim(req.patientName)
            && r.result.value.notes == TrimOption(req.notes)
            && r.result.value.consultationType != Both
            && r.result.value.date == req.date
            && r.result.value.status == Pending
  {
  }

  /** A doctor offering both types takes an online and an offline booking
      alike, for a free slot and fields the schema accepts. */
  lemma BothTypesBookable(directory: seq<Doctor>, ledger: seq<Appointment>, req: BookingRequest, newId: ObjectId)
    requires IsCanonicalId(newId)
    requires IsObjectId(req.doctorId)
    requires FindDoctor(directory, ToLower(req.doctorId)).Some?
    requires FindDoctor(directory, ToLower(req.doctorId)).value.consultationType == Both
    requires !SlotHeld(ledger, ToLower(req.doctorId), req.date, req.time)
    requires FieldsAccepted(req.(consultationType := "online"))
    ensures Book(directory, ledger, req.(consultationType := "online"), newId).result.Ok?
    ensures Book(directory, ledger, req.(consultationType := "offline"), newId).result.Ok?
  {
    assert Bookable(directory, ledger, req.(consultationType := "online"));
    assert Bookable(directory, ledger, req.(consultationType := "offline"));
  }

  /** A phone number that trims to nothing fails the schema, so the booking fails. */
  lemma BlankPhoneNotBooked(directory: seq<Doctor>, ledger: seq<Appointment>, req: BookingRequest, newId: ObjectId)
    requires IsCanonicalId(newId) && Trim(req.patientPhone) == ""
    ensures Book(directory, ledger, req, newId).result.Err?
  {
    var r := Book(directory, ledger, req, newId);
    if r.result.Ok? {
      assert false;
    }
  }

  /** Immediately after a successful booking, no request for the same doctor,
      instant and time can succeed, whoever makes it. */
  lemma NoDoubleBooking(directory: seq<Doctor>, ledger: seq<Appointment>, req: BookingRequest, newId: ObjectId,
                        req2: BookingRequest, newId2: ObjectId)
    requires IsCanonicalId(newId) && IsCanonicalId(newId2)
    requires Book(directory, ledger, req, newId).result.Ok?
    requires req2.doctorId == req.doctorId && req2.date == req.date && req2.time == req.time
    ensures Book(directory, Book(directory, ledger, req, newId).ledger, req2, newId2).result.Err?
  {
    var step := Book(directory, ledger, req, newId);
    var a := step.result.value;
    assert step.ledger[|ledger|] == a;
    assert Holds(a, ToLower(req2.doctorId), req2.date, req2.time);
    assert SlotHeld(step.ledger, ToLower(req2.doctorId), req2.date, req2.time);
  }

  /** A successful booking names a stored doctor offering the requested type. */
  lemma BookedDoctor(directory: seq<Doctor>, ledger: seq<Appointment>, req: BookingRequest, newId: ObjectId)
    returns (d: Doctor)
    requires IsCanonicalId(newId)
    requires Book(directory, ledger, req, newId).result.Ok?
    ensures IsObjectId(req.doctorId) && FindDoctor(directory, ToLower(req.doctorId)) == Some(d)
    ensures TypeAccepted(d.consultationType, req.consultationType)
  {
    var a := Book(directory, ledger, req, newId).result.value;
    assert IsObjectId(req.doctorId);
    assert HasDoctor(directory, ToLower(req.doctorId));
    d := FindDoctor(directory, ToLower(req.doctorId)).value;
  }

  /** Repeating a successful booking verbatim is rejected as a conflict. */
  lemma RepeatedBookingConflicts(directory: seq<Doctor>, ledger: seq<Appointment>, req: BookingRequest, newId: ObjectId,
                                 newId2: ObjectId)
    requires IsCanonicalId(newId) && IsCanonicalId(newId2)
    requires Book(directory, ledger, req, newId).result.Ok?
    ensures Book(directory, Book(directory, ledger, req, newId).ledger, req, newId2).result == Err(Conflict(SlotTaken))
  {
    var step := Book(directory, ledger, req, newId);
    var d := BookedDoctor(directory, ledger, req, newId);
    var a := step.result.value;
    assert step.ledger[|ledger|] == a;
    assert SlotHeld(step.ledger, ToLower(req.doctorId), req.date, req.time);
  }

  /** Cancelled and completed appointments never block a booking. */
  lemma InactiveAppointmentsNeverBlock(ledger: seq<Appointment>, doctorId: ObjectId, date: Instant, time: string)
    requires forall k :: 0 <= k < |ledger| ==> !IsActive(ledger[k].status)
    ensures !SlotHeld(ledger, doctorId, date, time)
  {
  }

  /** The ledger invariant the conflict check aims at: no two pending or
      confirmed appointments hold the same slot. */
  predicate NoDoubleBooked(ledger: seq<Appointment>) {
    forall i, j :: 0 <= i < j < |ledger| && IsActive(ledger[i].status) ==>
      !Holds(ledger[j], ledger[i].doctorId, ledger[i].date, ledger[i].time)
  }

  /** Sequential bookings keep the invariant. */
  lemma BookPreservesNoDoubleBooked(directory: seq<Doctor>, ledger: seq<Appointment>, req: BookingRequest, newId: ObjectId)
    requires IsCanonicalId(newId)
    requires NoDoubleBooked(ledger)
    ensures NoDoubleBooked(Book(directory, ledger, req, newId).ledger)
  {
    var step := Book(directory, ledger, req, newId);
    if step.result.Ok? {
      var a := step.result.value;
      var l := step.ledger;
      forall i, j | 0 <= i < j < |l| && IsActive(l[i].status)
        ensures !Holds(l[j], l[i].doctorId, l[i].date, l[i].time)
      {
        if j == |ledger| {
          assert l[j] == a && l[i] == ledger[i];
          assert !Holds(ledger[i], a.doctorId, a.date, a.time);
        } else {
          assert l[i] == ledger[i] && l[j] == ledger[j];
        }
      }
    }
  }

  predicate UniqueIds(ledger: seq<Appointment>) {
    forall i, j :: 0 <= i < j < |ledger| ==> ledger[i].id != ledger[j].id
  }

  predicate IdUsed(ledger: seq<Appointment>, id: ObjectId) {
    exists k :: 0 <= k < |ledger| && ledger[k].id == id
  }

  /** With the store handing out a fresh id, bookings keep appointment ids unique. */
  lemma BookPreservesUniqueIds(directory: seq<Doctor>, ledger: seq<Appointment>, req: BookingRequest, newId: ObjectId)
    requires IsCanonicalId(newId) && UniqueIds(ledger) && !IdUsed(ledger, newId)
    ensures UniqueIds(Book(directory, ledger, req, newId).ledger)
  {
    var step := Book(directory, ledger, req, newId);
    if step.result.Ok? {
      assert step.ledger == ledger + [step.result.value] && step.result.value.id == newId;
      AppendFreshKeepsUniqueIds(ledger, step.result.value);
    }
  }

  /** Appending an appointment whose id is not in use keeps ids unique. */
  lemma AppendFreshKeepsUniqueIds(ledger: seq<Appointment>, a: Appointment)
    requires UniqueIds(ledger) && !IdUsed(ledger, a.id)
    ensures UniqueIds(ledger + [a])
  {
    var l := ledger + [a];
    forall i, j | 0 <= i < j < |l| ensures l[i].id != l[j].id {
      if j == |ledger| {
        assert l[j] == a && l[i] == ledger[i];
      } else {
        assert l[i] == ledger[i] && l[j] == ledger[j];
      }
    }
  }

  /** `a` occupies a booked slot of doctor `doctorId` in window `w` of the day of `day`. */
  predicate OccupiesDay(a: Appointment, doctorId: ObjectId, day: Instant, offset: int, w: DayWindow) {
    a.doctorId == doctorId && IsActive(a.status) && InWindow(w, a.date, day, offset)
  }

  /** How many appointments occupy a slot labelled `t` that day. */
  function CountOccupying(ledger: seq<Appointment>, doctorId: ObjectId, day: Instant, offset: int, w: DayWindow,
                         t: string): nat {
    if |ledger| == 0 then 0
    else (if OccupiesDay(ledger[0], doctorId, day, offset, w) && ledger[0].time == t then 1 else 0)
         + CountOccupying(ledger[1..], doctorId, day, offset, w, t)
  }

  predicate OccupiedLabel(ledger: seq<Appointment>, doctorId: ObjectId, day: Instant, offset: int, w: DayWindow,
                          t: string) {
    exists k :: 0 <= k < |ledger| && OccupiesDay(ledger[k], doctorId, day, offset, w) && ledger[k].time == t
  }

  /** The time labels of the appointments occupying that day, one per appointment. */
  function OccupiedTimes(ledger: seq<Appointment>, doctorId: ObjectId, day: Instant, offset: int, w: DayWindow)
    : (times: seq<string>)
    ensures forall t :: multiset(times)[t] == CountOccupying(ledger, doctorId, day, offset, w, t)
    ensures forall t :: t in times <==> OccupiedLabel(ledger, doctorId, day, offset, w, t)
  {
    if |ledger| == 0 then []
    else
      var rest := OccupiedTimes(ledger[1..], doctorId, day, offset, w);
      var times := if OccupiesDay(ledger[0], doctorId, day, offset, w) then [ledger[0].time] + rest else rest;
      assert forall t :: OccupiedLabel(ledger, doctorId, day, offset, w, t) <==>
               (OccupiesDay(ledger[0], doctorId, day, offset, w) && ledger[0].time == t)
               || OccupiedLabel(ledger[1..], doctorId, day, offset, w, t) by {
        forall t ensures OccupiedLabel(ledger, doctorId, day, offset, w, t) <==>
               (OccupiesDay(ledger[0], doctorId, day, offset, w) && ledger[0].time == t)
               || OccupiedLabel(ledger[1..], doctorId, day, offset, w, t) {
          if OccupiedLabel(ledger, doctorId, day, offset, w, t) {
            var k :| 0 <= k < |ledger| && OccupiesDay(ledger[k], doctorId, day, offset, w) && ledger[k].time == t;
            if k > 0 { assert ledger[1..][k - 1] == ledger[k]; }
          }
          if OccupiedLabel(ledger[1..], doctorId, day, offset, w, t) {
            var k :| 0 <= k < |ledger| - 1 && OccupiesDay(ledger[1..][k], doctorId, day, offset, w) && ledger[1..][k].time == t;
            assert ledger[k + 1] == ledger[1..][k];
          }
        }
      }
      times
  }

  /** `getBookedSlots`. With no date the request is refused. A malformed
      doctor id or a date `new Date` cannot read fails the store's cast.
      Otherwise the answer lists the time of every pending or confirmed
      appointment of the doctor in window `w` of that local day, one entry
      per appointment, and nothing else. */
  function BookedSlots(ledger: seq<Appointment>, doctorId: string, date: string,
                       parseDate: string -> Option<Instant>, offset: int, w: DayWindow)
    : (r: Result<seq<string>, Error>)
    ensures date == "" <==> r == Err(InvalidRequest(DateRequired))
    ensures date != "" && (!IsObjectId(doctorId) || parseDate(date).None?) <==> r == Err(StoreFailure(SlotsFailed))
    ensures r.Ok? ==> date != "" && IsObjectId(doctorId) && parseDate(date).Some?
    ensures r.Ok? ==> forall t :: multiset(r.value)[t] == CountOccupying(ledger, ToLower(doctorId), parseDate(date).value, offset, w, t)
    ensures r.Ok? ==> forall t :: t in r.value <==>
              exists k :: 0 <= k < |ledger| && ledger[k].time == t && ledger[k].doctorId == ToLower(doctorId)
                          && IsActive(ledger[k].status)
                          && LocalDay(ledger[k].date, offset) == LocalDay(parseDate(date).value, offset)
                          && (w.AsWritten? ==> ledger[k].date != EndOfDay(parseDate(date).value, offset))
  {
    if date == "" then Err(InvalidRequest(DateRequired))
    else match (CastObjectId(doctorId), parseDate(date))
      case (Some(id), Some(day)) =>
        var times := OccupiedTimes(ledger, id, day, offset, w);
        assert forall k :: 0 <= k < |ledger| ==>
          (InWindow(w, ledger[k].date, day, offset) <==>
             LocalDay(ledger[k].date, offset) == LocalDay(day, offset) && (w.AsWritten? ==> ledger[k].date != EndOfDay(day, offset))) by {
          forall k | 0 <= k < |ledger| ensures
            InWindow(w, ledger[k].date, day, offset) <==>
              LocalDay(ledger[k].date, offset) == LocalDay(day, offset) && (w.AsWritten? ==> ledger[k].date != EndOfDay(day, offset)) {
            WindowIsLocalDay(w, ledger[k].date, day, offset);
          }
        }
        Ok(times)
      case _ => Err(StoreFailure(SlotsFailed))
  }

  /** A booking's own time shows up among the booked slots of its local day
      right after it, unless the controller's window is used and the booking
      sits on the day's last millisecond. */
  lemma BookedSlotShowsUp(directory: seq<Doctor>, ledger: seq<Appointment>, req: BookingRequest, newId: ObjectId,
                          date: string, parseDate: string -> Option<Instant>, offset: int, w: DayWindow)
    requires IsCanonicalId(newId)
    requires Book(directory, ledger, req, newId).result.Ok?
    requires date != "" && parseDate(date).Some?
    requires LocalDay(parseDate(date).value, offset) == LocalDay(req.date, offset)
    requires w.AsWritten? ==> req.date != EndOfDay(parseDate(date).value, offset)
    ensures BookedSlots(Book(directory, ledger, req, newId).ledger, req.doctorId, date, parseDate, offset, w).Ok?
    ensures req.time in BookedSlots(Book(directory, ledger, req, newId).ledger, req.doctorId, date, parseDate, offset, w).value
  {
    var l := BookedRecord(directory, ledger, req, newId);
    SlotListed(l, req.doctorId, date, parseDate, offset, w, |ledger|);
  }

  /** The ledger after a successful booking, whose last entry is the
      request's active appointment. */
  lemma BookedRecord(directory: seq<Doctor>, ledger: seq<Appointment>, req: BookingRequest, newId: ObjectId)
    returns (l: seq<Appointment>)
    requires IsCanonicalId(newId)
    requires Book(directory, ledger, req, newId).result.Ok?
    ensures l == Book(directory, ledger, req, newId).ledger && |l| == |ledger| + 1
    ensures IsObjectId(req.doctorId)
    ensures l[|ledger|].time == req.time && l[|ledger|].doctorId == ToLower(req.doctorId)
    ensures l[|ledger|].date == req.date && IsActive(l[|ledger|].status)
  {
    l := Book(directory, ledger, req, newId).ledger;
  }

  /** An active appointment of the doctor inside the window is among the booked slots. */
  lemma SlotListed(ledger: seq<Appointment>, doctorId: string, date: string,
                   parseDate: string -> Option<Instant>, offset: int, w: DayWindow, k: int)
    requires date != "" && IsObjectId(doctorId) && parseDate(date).Some?
    requires 0 <= k < |ledger| && ledger[k].doctorId == ToLower(doctorId) && IsActive(ledger[k].status)
    requires LocalDay(ledger[k].date, offset) == LocalDay(parseDate(date).value, offset)
    requires w.AsWritten? ==> ledger[k].date != EndOfDay(parseDate(date).value, offset)
    ensures BookedSlots(ledger, doctorId, date, parseDate, offset, w).Ok?
    ensures ledger[k].time in BookedSlots(ledger, doctorId, date, parseDate, offset, w).value
  {
  }

  /** As written, a booking on the last millisecond of its local day is
      missing from that day's booked slots, so the form offers its time
      again; the whole-day window lists it. */
  lemma LastMillisecondBookingHidden(directory: seq<Doctor>, req: BookingRequest, newId: ObjectId,
                                     date: string, parseDate: string -> Option<Instant>, offset: int)
    requires IsCanonicalId(newId)
    requires Book(directory, [], req, newId).result.Ok?
    requires date != "" && parseDate(date).Some?
    requires req.date == EndOfDay(parseDate(date).value, offset)
    ensures BookedSlots(Book(directory, [], req, newId).ledger, req.doctorId, date, parseDate, offset, AsWritten) == Ok([])
    ensures req.time in BookedSlots(Book(directory, [], req, newId).ledger, req.doctorId, date, parseDate, offset, WholeDay).value
  {
    var a := Book(directory, [], req, newId).result.value;
    var day := parseDate(date).value;
    assert Book(directory, [], req, newId).ledger == [a];
    AsWrittenWindowMissesLastMillisecond(day, offset);
    assert !OccupiesDay(a, ToLower(req.doctorId), day, offset, AsWritten);
    assert OccupiedTimes([a], ToLower(req.doctorId), day, offset, AsWritten) == [];
    BookedSlotShowsUp(directory, [], req, newId, date, parseDate, offset, WholeDay);
  }

  /** `a` is listed by `getAppointmentsByDoctor` for these query parameters. */
  predicate Listed(a: Appointment, doctorId: ObjectId, date: Option<Instant>, status: string, offset: int, w: DayWindow) {
    && a.doctorId == doctorId
    && (date.Some? ==> InWindow(w, a.date, date.value, offset))
    && (status != "" ==> StatusName(a.status) == status)
  }

  /** The listed appointments of `ledger`, in ledger order. */
  function SelectListed(ledger: seq<Appointment>, doctorId: ObjectId, date: Option<Instant>, status: string, offset: int,
                        w: DayWindow)
    : (r: seq<Appointment>)
    ensures forall a :: multiset(r)[a] == (if Listed(a, doctorId, date, status, offset, w) then multiset(ledger)[a] else 0)
  {
    if |ledger| == 0 then []
    else
      var rest := SelectListed(ledger[1..], doctorId, date, status, offset, w);
      assert ledger == [ledger[0]] + ledger[1..];
      assert multiset(ledger) == multiset{ledger[0]} + multiset(ledger[1..]);
      if Listed(ledger[0], doctorId, date, status, offset, w) then [ledger[0]] + rest else rest
  }

  /** The appointment order: by instant, then by time label. */
  function DateTimeKey(a: Appointment): SortKey {
    SortKey(a.date as real, a.time)
  }

  /** The day a listing is narrowed to: none without a date. */
  function QueryDay(date: string, parseDate: string -> Option<Instant>): Option<Instant> {
    if date == "" then None else parseDate(date)
  }

  /** `getAppointmentsByDoctor`: exactly that doctor's appointments, narrowed
      to window `w` of the local day and to the exact status when those are
      given, ordered by date and then time. A malformed id, or a date `new
      Date` cannot read, fails the store's cast. */
  function ListByDoctor(ledger: seq<Appointment>, doctorId: string, date: string, status: string,
                        parseDate: string -> Option<Instant>, offset: int, w: DayWindow)
    : (r: Result<seq<Appointment>, Error>)
    ensures r.Ok? <==> IsObjectId(doctorId) && (date == "" || parseDate(date).Some?)
    ensures r.Err? ==> r.error == StoreFailure(ListFailed)
    ensures r.Ok? ==>
              forall a :: multiset(r.value)[a] ==
                (if Listed(a, ToLower(doctorId), QueryDay(date, parseDate), status, offset, w) then multiset(ledger)[a] else 0)
    ensures r.Ok? ==> forall i, j :: 0 <= i < j < |r.value| ==>
              r.value[i].date < r.value[j].date
              || (r.value[i].date == r.value[j].date && LexLe(r.value[i].time, r.value[j].time))
  {
    var day := QueryDay(date, parseDate);
    match CastObjectId(doctorId)
    case None => Err(StoreFailure(ListFailed))
    case Some(id) =>
      if date != "" && day.None? then Err(StoreFailure(ListFailed))
      else
        var sorted := SortByKey(SelectListed(ledger, id, day, status, offset, w), DateTimeKey);
        assert forall i, j :: 0 <= i < j < |sorted| ==> KeyLe(DateTimeKey(sorted[i]), DateTimeKey(sorted[j]));
        Ok(sorted)
  }

  /** Every listed appointment belongs to the doctor asked about, has the
      status asked about, and lies on the local day asked about. */
  lemma ListedBelongToDoctor(ledger: seq<Appointment>, doctorId: string, date: string, status: string,
                             parseDate: string -> Option<Instant>, offset: int, w: DayWindow)
    requires ListByDoctor(ledger, doctorId, date, status, parseDate, offset, w).Ok?
    ensures forall a :: a in ListByDoctor(ledger, doctorId, date, status, parseDate, offset, w).value ==>
              && a in ledger && a.doctorId == ToLower(doctorId)
              && (status != "" ==> StatusName(a.status) == status)
              && (date != "" ==> LocalDay(a.date, offset) == LocalDay(parseDate(date).value, offset))
  {
    var r := ListByDoctor(ledger, doctorId, date, status, parseDate, offset, w).value;
    forall a | a in r
      ensures && a in ledger && a.doctorId == ToLower(doctorId)
              && (status != "" ==> StatusName(a.status) == status)
              && (date != "" ==> LocalDay(a.date, offset) == LocalDay(parseDate(date).value, offset))
    {
      assert multiset(r)[a] > 0;
      if date != "" { WindowIsLocalDay(w, a.date, parseDate(date).value, offset); }
    }
  }

  /** `findByIdAndUpdate`'s match: the first appointment with the id. */
  function IndexOfId(ledger: seq<Appointment>, id: ObjectId): (r: Option<nat>)
    ensures r.None? <==> !IdUsed(ledger, id)
    ensures r.Some? ==> r.value < |ledger| && ledger[r.value].id == id
                        && forall k :: 0 <= k < r.value ==> ledger[k].id != id
  {
    if |ledger| == 0 then None
    else if ledger[0].id == id then Some(0)
    else
      var r := IndexOfId(ledger[1..], id);
      assert IdUsed(ledger, id) <==> IdUsed(ledger[1..], id) by {
        if IdUsed(ledger, id) {
          var k :| 0 <= k < |ledger| && ledger[k].id == id;
          assert ledger[1..][k - 1].id == id;
        }
        if IdUsed(ledger[1..], id) {
          var k :| 0 <= k < |ledger| - 1 && ledger[1..][k].id == id;
          assert ledger[k + 1].id == id;
        }
      }
      if r.None? then None else Some(r.value + 1)
  }

  /** `updateAppointmentStatus`. The new status is checked against the four
      names before anything else; there is no transition table, so any valid
      status may replace any other. Only the status of the one matched
      appointment changes. */
  function UpdateStatus(ledger: seq<Appointment>, id: string, status: string): (r: Step<Appointment>)
    ensures r.result.Err? ==> r.ledger == ledger
    ensures ParseStatus(status).None? ==> r.result == Err(InvalidRequest(InvalidStatus))
    ensures ParseStatus(status).Some? && !IsObjectId(id) ==> r.result == Err(StoreFailure(UpdateFailed))
    ensures ParseStatus(status).Some? && IsObjectId(id) ==>
              (r.result == Err(NotFound(AppointmentNotFound)) <==> !IdUsed(ledger, ToLower(id)))
    ensures r.result.Ok? ==>
              && |r.ledger| == |ledger|
              && StatusName(r.result.value.status) == status
              && exists i :: 0 <= i < |ledger| && ledger[i].id == ToLower(id)
                             && r.result.value == ledger[i].(status := r.result.value.status)
                             && r.ledger[i] == r.result.value
                             && forall j :: 0 <= j < |ledger| && j != i ==> r.ledger[j] == ledger[j]
  {
    match ParseStatus(status)
    case None => Step(Err(InvalidRequest(InvalidStatus)), ledger)
    case Some(s) =>
      match CastObjectId(id)
      case None => Step(Err(StoreFailure(UpdateFailed)), ledger)
      case Some(key) =>
        match IndexOfId(ledger, key)
        case None => Step(Err(NotFound(AppointmentNotFound)), ledger)
        case Some(i) =>
          var updated := ledger[i].(status := s);
          Step(Ok(updated), ledger[i := updated])
  }

  /** Any of the four statuses can be set on an existing appointment whatever
      its current status. */
  lemma AnyStatusChangeAccepted(ledger: seq<Appointment>, i: nat, target: Status)
    requires i < |ledger| && IsCanonicalId(ledger[i].id)
    ensures UpdateStatus(ledger, ledger[i].id, StatusName(target)).result.Ok?
  {
  }

  /** Re-activating a cancelled appointment is accepted even when its slot has
      been booked again, so status updates do not keep the no-double-booking
      invariant that bookings keep. */
  lemma ReactivationCanDoubleBook()
    ensures exists ledger: seq<Appointment> ::
              |ledger| > 0 && NoDoubleBooked(ledger) && UpdateStatus(ledger, ledger[0].id, "pending").result.Ok?
              && !NoDoubleBooked(UpdateStatus(ledger, ledger[0].id, "pending").ledger)
  {
    var id0 := "aaaaaaaaaaaaaaaaaaaaaaaa";
    var id1 := "bbbbbbbbbbbbbbbbbbbbbbbb";
    var doc := "cccccccccccccccccccccccc";
    var a := Appointment(id0, doc, "Ann", "ann@example.com", "555", 0, "10:00", Online, Cancelled, None);
    var b := a.(id := id1, status := Pending);
    var ledger := [a, b];
    assert NoDoubleBooked(ledger);
    assert CastObjectId(id0) == Some(id0);
    var after := UpdateStatus(ledger, id0, "pending");
    assert after.ledger == [a.(status := Pending), b];
    assert Holds(after.ledger[1], after.ledger[0].doctorId, after.ledger[0].date, after.ledger[0].time);
  }
}

=== FILE: models.dfy ===
/** The two stored records, Doctor and Appointment, with their enumerations,
    and the schema step that turns the fields given on creation into a stored
    record: required fields, enumerations, numeric bounds, defaults, and the
    trimming and lower-casing setters. Also the error kinds every operation
    reports. */
module Models {
  import opened Wrappers
  import opened Text
  import opened Calendar

  /** A MongoDB object id in canonical form: 24 lower-case hexadecimal digits. */
  type ObjectId = string

  predicate IsHexDigit(c: char) {
    ('0' <= c <= '9') || ('a' <= c <= 'f') || ('A' <= c <= 'F')
  }

  /** What Mongoose's object-id cast accepts: exactly 24 hexadecimal digits, either case. */
  predicate IsObjectId(s: string) {
    |s| == 24 && forall i :: 0 <= i < |s| ==> IsHexDigit(s[i])
  }

  /** An object id as the store holds it. */
  predicate IsCanonicalId(s: string) {
    IsObjectId(s) && ToLower(s) == s
  }

  /** Casting a request string to an object id: a 24-digit hexadecimal string
      denotes the id spelled in lower case; any other string makes the query fail. */
  function CastObjectId(s: string): (r: Option<ObjectId>)
    ensures r.Some? <==> IsObjectId(s)
    ensures r.Some? ==> IsCanonicalId(r.value)
    ensures r.Some? ==> forall i :: 0 <= i < 24 ==> LowerChar(s[i]) == r.value[i]
    ensures IsCanonicalId(s) ==> r == Some(s)
  {
    if IsObjectId(s) then
      var t := ToLower(s);
      assert forall i :: 0 <= i < |t| ==> LowerChar(t[i]) == t[i];
      assert ToLower(t) == t;
      Some(t)
    else None
  }

  /** The error kinds reported to callers. */
  datatype Error =
    | ValidationFailed(messages: seq<string>)
    | NotFound(message: string)
    | InvalidRequest(message: string)
    | Conflict(message: string)
    | StoreFailure(message: string)

  /** A field-level schema violation found when a record is created. */
  datatype SchemaError =
    | Required(path: string)
    | BelowMinimum(path: string)
    | AboveMaximum(path: string)
    | NotInEnum(path: string)
    | CastFailed(path: string)

  datatype ConsultationType = Online | Offline | Both

  function ConsultationTypeName(t: ConsultationType): string {
    match t
    case Online => "online"
    case Offline => "offline"
    case Both => "both"
  }

  /** Reads a consultation type; exactly the three names are accepted. */
  function ParseConsultationType(s: string): (r: Option<ConsultationType>)
    ensures forall t :: r == Some(t) <==> s == ConsultationTypeName(t)
  {
    if s == "online" then Some(Online)
    else if s == "offline" then Some(Offline)
    else if s == "both" then Some(Both)
    else None
  }

  /** The appointment status. Pending and confirmed appointments hold their slot. */
  datatype Status = Pending | Confirmed | Cancelled | Completed

  function StatusName(s: Status): string {
    match s
    case Pending => "pending"
    case Confirmed => "confirmed"
    case Cancelled => "cancelled"
    case Completed => "completed"
  }

  /** Reads a status; exactly the four names are accepted. */
  function ParseStatus(s: string): (r: Option<Status>)
    ensures forall st :: r == Some(st) <==> s == StatusName(st)
  {
    if s == "pending" then Some(Pending)
    else if s == "confirmed" then Some(Confirmed)
    else if s == "cancelled" then Some(Cancelled)
    else if s == "completed" then Some(Completed)
    else None
  }

  predicate IsActive(s: Status) {
    s == Pending || s == Confirmed
  }

  datatype Weekday = Monday | Tuesday | Wednesday | Thursday | Friday | Saturday | Sunday

  function WeekdayName(d: Weekday): string {
    match d
    case Monday => "Monday"
    case Tuesday => "Tuesday"
    case Wednesday => "Wednesday"
    case Thursday => "Thursday"
    case Friday => "Friday"
    case Saturday => "Saturday"
    case Sunday => "Sunday"
  }

  /** Reads a day of the week; exactly the seven capitalised English names are accepted. */
  function ParseWeekday(s: string): (r: Option<Weekday>)
    ensures forall d :: r == Some(d) <==> s == WeekdayName(d)
  {
    if s == "Monday" then Some(Monday)
    else if s == "Tuesday" then Some(Tuesday)
    else if s == "Wednesday" then Some(Wednesday)
    else if s == "Thursday" then Some(Thursday)
    else if s == "Friday" then Some(Friday)
    else if s == "Saturday" then Some(Saturday)
    else if s == "Sunday" then Some(Sunday)
    else None
  }

  datatype AvailabilitySlot = AvailabilitySlot(
    day: Option<Weekday>, startTime: Option<string>, endTime: Option<string>, isAvailable: bool)

  datatype Doctor = Doctor(
    id: ObjectId,
    name: string,
    speciality: string,
    location: string,
    experience: int,
    consultationFee: int,
    consultationType: ConsultationType,
    languages: seq<string>,
    availabilitySlots: seq<AvailabilitySlot>,
    profileImage: string,
    about: Option<string>,
    education: Option<string>,
    hospital: Option<string>,
    rating: real,
    reviewCount: int,
    createdAt: Instant)

  datatype Appointment = Appointment(
    id: ObjectId,
    doctorId: ObjectId,
    patientName: string,
    patientEmail: string,
    patientPhone: string,
    date: Instant,
    time: string,
    consultationType: ConsultationType,
    status: Status,
    notes: Option<string>)

  /** A string that is stored trimmed and satisfies `required`. */
  predicate IsRequiredTrimmed(s: string) {
    s != [] && IsTrimmed(s)
  }

  predicate IsOptionalTrimmed(s: Option<string>) {
    s.Some? ==> IsTrimmed(s.value)
  }

  /** What every stored doctor satisfies. */
  predicate DoctorWellFormed(d: Doctor) {
    && IsCanonicalId(d.id)
    && IsRequiredTrimmed(d.name) && IsRequiredTrimmed(d.speciality) && IsRequiredTrimmed(d.location)
    && d.experience >= 0
    && d.consultationFee >= 0
    && (forall k :: 0 <= k < |d.languages| ==> IsTrimmed(d.languages[k]))
    && IsOptionalTrimmed(d.about) && IsOptionalTrimmed(d.education) && IsOptionalTrimmed(d.hospital)
    && 0.0 <= d.rating <= 5.0
  }

  /** What every stored appointment satisfies. */
  predicate AppointmentWellFormed(a: Appointment) {
    && IsCanonicalId(a.id) && IsCanonicalId(a.doctorId)
    && IsRequiredTrimmed(a.patientName)
    && IsRequiredTrimmed(a.patientEmail) && ToLower(a.patientEmail) == a.patientEmail
    && IsRequiredTrimmed(a.patientPhone)
    && a.time != []
    && a.consultationType != Both
    && IsOptionalTrimmed(a.notes)
  }

  const DefaultProfileImage: string := "https://via.placeholder.com/150x150?text=Doctor"
  const DefaultRating: real := 4.5

  datatype SlotInput = SlotInput(
    day: Option<string>, startTime: Option<string>, endTime: Option<string>, isAvailable: Option<bool>)

  /** The fields given when a doctor is created; absent fields are `None`. */
  datatype DoctorInput = DoctorInput(
    name: Option<string>,
    speciality: Option<string>,
    location: Option<string>,
    experience: Option<int>,
    consultationFee: Option<int>,
    consultationType: Option<string>,
    languages: seq<string>,
    availabilitySlots: seq<SlotInput>,
    profileImage: Option<string>,
    about: Option<string>,
    education: Option<string>,
    hospital: Option<string>,
    rating: Option<real>,
    reviewCount: Option<int>)

  /** A required, trimmed string field: absent or blank after trimming is an error. */
  function RequiredTrimmed(path: string, v: Option<string>): (errs: seq<SchemaError>)
    ensures errs == [] <==> v.Some? && Trim(v.value) != []
  {
    if v.Some? && Trim(v.value) != [] then [] else [Required(path)]
  }

  /** A required number with a lower bound of zero. */
  function RequiredNonNegative(path: string, v: Option<int>): (errs: seq<SchemaError>)
    ensures errs == [] <==> v.Some? && v.value >= 0
  {
    if v.None? then [Required(path)] else if v.value < 0 then [BelowMinimum(path)] else []
  }

  function TrimOption(v: Option<string>): (r: Option<string>)
    ensures r.Some? <==> v.Some?
    ensures r.Some? ==> r.value == Trim(v.value) && IsTrimmed(r.value)
  {
    if v.Some? then Some(Trim(v.value)) else None
  }

  predicate SlotDayAccepted(s: SlotInput) {
    s.day.None? || ParseWeekday(s.day.value).Some?
  }

  /** Applies the slot sub-schema: the day must be a weekday name and
      `isAvailable` defaults to true. */
  function ApplySlotSchema(s: SlotInput): (r: AvailabilitySlot)
    requires SlotDayAccepted(s)
    ensures r.day.Some? <==> s.day.Some?
    ensures r.day.Some? ==> WeekdayName(r.day.value) == s.day.value
    ensures r.startTime == s.startTime && r.endTime == s.endTime
    ensures r.isAvailable == (s.isAvailable.None? || s.isAvailable.value)
  {
    AvailabilitySlot(
      if s.day.Some? then ParseWeekday(s.day.value) else None,
      s.startTime, s.endTime,
      if s.isAvailable.Some? then s.isAvailable.value else true)
  }

  /** The doctor schema's requirements on the given fields. */
  predicate DoctorInputAccepted(input: DoctorInput) {
    && input.name.Some? && Trim(input.name.value) != []
    && input.speciality.Some? && Trim(input.speciality.value) != []
    && input.location.Some? && Trim(input.location.value) != []
    && input.experience.Some? && input.experience.value >= 0
    && input.consultationFee.Some? && input.consultationFee.value >= 0
    && (input.consultationType.Some? ==> ParseConsultationType(input.consultationType.value).Some?)
    && (forall k :: 0 <= k < |input.availabilitySlots| ==> SlotDayAccepted(input.availabilitySlots[k]))
    && (input.rating.Some? ==> 0.0 <= input.rating.value <= 5.0)
  }

  function EnumAndRangeErrors(input: DoctorInput): (errs: seq<SchemaError>)
    ensures errs == [] <==>
      && (input.consultationType.Some? ==> ParseConsultationType(input.consultationType.value).Some?)
      && (forall k :: 0 <= k < |input.availabilitySlots| ==> SlotDayAccepted(input.availabilitySlots[k]))
      && (input.rating.Some? ==> 0.0 <= input.rating.value <= 5.0)
  {
    var a := if input.consultationType.Some? && ParseConsultationType(input.consultationType.value).None?
             then [NotInEnum("consultationType")] else [];
    var b := if exists k :: 0 <= k < |input.availabilitySlots| && !SlotDayAccepted(input.availabilitySlots[k])
             then [NotInEnum("availabilitySlots.day")] else [];
    var c := if input.rating.Some? && input.rating.value < 0.0 then [BelowMinimum("rating")] else [];
    var d := if input.rating.Some? && input.rating.value > 5.0 then [AboveMaximum("rating")] else [];
    assert |a + b + c + d| == |a| + |b| + |c| + |d|;
    a + b + c + d
  }

  /** Every violation of the doctor schema in `input`. */
  function DoctorSchemaErrors(input: DoctorInput): (errs: seq<SchemaError>)
    ensures errs == [] <==> DoctorInputAccepted(input)
  {
    var a := RequiredTrimmed("name", input.name);
    var b := RequiredTrimmed("speciality", input.speciality);
    var c := RequiredTrimmed("location", input.location);
    var d := RequiredNonNegative("experience", input.experience);
    var e := RequiredNonNegative("consultationFee", input.consultationFee);
    var f := EnumAndRangeErrors(input);
    assert |a + b + c + d + e + f| == |a| + |b| + |c| + |d| + |e| + |f|;
    a + b + c + d + e + f
  }

  /** The slot sub-schema applied to every slot. */
  function ApplySlots(slots: seq<SlotInput>): (r: seq<AvailabilitySlot>)
    requires forall k :: 0 <= k < |slots| ==> SlotDayAccepted(slots[k])
    ensures |r| == |slots|
    ensures forall k :: 0 <= k < |r| ==> r[k] == ApplySlotSchema(slots[k])
  {
    seq(|slots|, k requires 0 <= k < |slots| => ApplySlotSchema(slots[k]))
  }

  /** The stored value of a required trimmed field the schema accepted. */
  function RequiredField(v: Option<string>): (r: string)
    requires v.Some? && Trim(v.value) != []
    ensures IsRequiredTrimmed(r) && r == Trim(v.value)
  {
    Trim(v.value)
  }

  /** The consultation type of a new doctor: the given one, or `both`. */
  function TypeOrBoth(v: Option<string>): (t: ConsultationType)
    requires v.Some? ==> ParseConsultationType(v.value).Some?
    ensures v.None? ==> t == Both
    ensures v.Some? ==> ConsultationTypeName(t) == v.value
  {
    if v.Some? then ParseConsultationType(v.value).value else Both
  }

  /** The stored doctor built from accepted fields: well formed, with the
      strings trimmed and the given values kept. */
  function BuildDoctor(id: ObjectId, createdAt: Instant, input: DoctorInput): (d: Doctor)
    requires IsCanonicalId(id) && DoctorInputAccepted(input)
    ensures DoctorWellFormed(d)
    ensures d.id == id && d.createdAt == createdAt
    ensures d.name == Trim(input.name.value) && d.location == Trim(input.location.value)
            && d.speciality == Trim(input.speciality.value)
    ensures d.experience == input.experience.value && d.consultationFee == input.consultationFee.value
    ensures d.about == TrimOption(input.about) && d.education == TrimOption(input.education)
            && d.hospital == TrimOption(input.hospital)
    ensures input.rating.Some? ==> d.rating == input.rating.value
    ensures input.reviewCount.Some? ==> d.reviewCount == input.reviewCount.value
    ensures input.profileImage.Some? ==> d.profileImage == input.profileImage.value
  {
    var name := RequiredField(input.name);
    var speciality := RequiredField(input.speciality);
    var location := RequiredField(input.location);
    var languages := TrimAll(input.languages);
    var about, education, hospital := TrimOption(input.about), TrimOption(input.education), TrimOption(input.hospital);
    var rating := if input.rating.Some? then input.rating.value else DefaultRating;
    Doctor(
      id, name, speciality, location,
      input.experience.value, input.consultationFee.value,
      TypeOrBoth(input.consultationType),
      languages, ApplySlots(input.availabilitySlots),
      if input.profileImage.Some? then input.profileImage.value else DefaultProfileImage,
      about, education, hospital, rating,
      if input.reviewCount.Some? then input.reviewCount.value else 0,
      createdAt)
  }

  /** The schema's defaults: consultation type both, rating 4.5, review
      count 0, the placeholder image, and every slot available unless it
      says otherwise; a given value replaces its default, and languages are
      kept in order, trimmed. */
  lemma BuildDoctorDefaults(id: ObjectId, createdAt: Instant, input: DoctorInput)
    requires IsCanonicalId(id) && DoctorInputAccepted(input)
    ensures var d := BuildDoctor(id, createdAt, input);
            && (input.consultationType.None? ==> d.consultationType == Both)
            && (input.consultationType.Some? ==> ConsultationTypeName(d.consultationType) == input.consultationType.value)
            && (input.rating.None? ==> d.rating == DefaultRating)
            && (input.rating.Some? ==> d.rating == input.rating.value)
            && (input.reviewCount.None? ==> d.reviewCount == 0)
            && (input.reviewCount.Some? ==> d.reviewCount == input.reviewCount.value)
            && (input.profileImage.None? ==> d.profileImage == DefaultProfileImage)
            && (input.profileImage.Some? ==> d.profileImage == input.profileImage.value)
            && |d.languages| == |input.languages|
            && (forall k :: 0 <= k < |input.languages| ==> d.languages[k] == Trim(input.languages[k]))
            && |d.availabilitySlots| == |input.availabilitySlots|
            && (forall k :: 0 <= k < |input.availabilitySlots| ==>
                  d.availabilitySlots[k].isAvailable == (input.availabilitySlots[k].isAvailable != Some(false)))
  {
    var d := BuildDoctor(id, createdAt, input);
    assert d.consultationType == TypeOrBoth(input.consultationType);
    assert d.rating == if input.rating.Some? then input.rating.value else DefaultRating;
    assert d.reviewCount == if input.reviewCount.Some? then input.reviewCount.value else 0;
    assert d.profileImage == if input.profileImage.Some? then input.profileImage.value else DefaultProfileImage;
    assert d.languages == TrimAll(input.languages);
    assert d.availabilitySlots == ApplySlots(input.availabilitySlots);
    forall k | 0 <= k < |input.availabilitySlots|
      ensures d.availabilitySlots[k].isAvailable == (input.availabilitySlots[k].isAvailable != Some(false))
    {
      var slot := input.availabilitySlots[k];
      assert d.availabilitySlots[k] == ApplySlotSchema(slot);
      assert slot.isAvailable != Some(false) <==> slot.isAvailable.None? || slot.isAvailable.value;
    }
  }

  /** Creating a doctor record: the schema's violations are all reported, or
      the record is stored with its strings trimmed and the defaults filled in
      (consultation type both, rating 4.5, review count 0, slots available). */
  function ApplyDoctorSchema(id: ObjectId, createdAt: Instant, input: DoctorInput): (r: Result<Doctor, seq<SchemaError>>)
    requires IsCanonicalId(id)
    ensures r.Ok? <==> DoctorInputAccepted(input)
    ensures r.Err? ==> r.error != []
    ensures r.Ok? ==> r.value == BuildDoctor(id, createdAt, input)
  {
    var errs := DoctorSchemaErrors(input);
    if errs != [] then Err(errs) else Ok(BuildDoctor(id, createdAt, input))
  }

  /** A stored doctor has the id. */
  predicate HasDoctor(directory: seq<Doctor>, id: ObjectId) {
    exists k :: 0 <= k < |directory| && directory[k].id == id
  }

  /** `Doctor.findById`: the first doctor with the id, if any. */
  function FindDoctor(directory: seq<Doctor>, id: ObjectId): (r: Option<Doctor>)
    ensures r.Some? <==> HasDoctor(directory, id)
    ensures r.Some? ==> r.value in directory && r.value.id == id
  {
    if |directory| == 0 then None
    else if directory[0].id == id then Some(directory[0])
    else
      var r := FindDoctor(directory[1..], id);
      assert HasDoctor(directory, id) <==> HasDoctor(directory[1..], id) by {
        if HasDoctor(directory, id) {
          var k :| 0 <= k < |directory| && directory[k].id == id;
          assert directory[1..][k - 1].id == id;
        }
        if HasDoctor(directory[1..], id) {
          var k :| 0 <= k < |directory| - 1 && directory[1..][k].id == id;
          assert directory[k + 1].id == id;
        }
      }
      r
  }

  /** The fields given when an appointment is created; absent fields are `None`. */
  datatype AppointmentInput = AppointmentInput(
    doctorId: Option<ObjectId>,
    patientName: Option<string>,
    patientEmail: Option<string>,
    patientPhone: Option<string>,
    date: Option<Instant>,
    time: Option<string>,
    consultationType: Option<string>,
    status: Option<string>,
    notes: Option<string>)

  /** The stored e-mail: trimmed and lower-cased. */
  function NormalizeEmail(s: string): (r: string)
    ensures IsTrimmed(r) && ToLower(r) == r
    ensures |r| == |Trim(s)|
  {
    var t := Trim(s);
    ToLowerKeepsTrimmed(t);
    ToLowerIdempotent(t);
    ToLower(t)
  }

  predicate AppointmentInputAccepted(input: AppointmentInput) {
    && input.doctorId.Some? && IsCanonicalId(input.doctorId.value)
    && input.patientName.Some? && Trim(input.patientName.value) != []
    && input.patientEmail.Some? && Trim(input.patientEmail.value) != []
    && input.patientPhone.Some? && Trim(input.patientPhone.value) != []
    && input.date.Some?
    && input.time.Some? && input.time.value != []
    && input.consultationType.Some?
    && (input.consultationType.value == "online" || input.consultationType.value == "offline")
    && (input.status.Some? ==> ParseStatus(input.status.value).Some?)
  }

  /** Creating an appointment record: rejected unless every required field is
      present and non-blank and the enumerations hold; otherwise stored with the
      patient's name, phone and notes trimmed, the e-mail trimmed and
      lower-cased, and the status defaulting to pending. */
  function ApplyAppointmentSchema(id: ObjectId, input: AppointmentInput): (r: Result<Appointment, seq<SchemaError>>)
    requires IsCanonicalId(id)
    ensures r.Ok? <==> AppointmentInputAccepted(input)
    ensures r.Err? ==> r.error != []
    ensures r.Ok? ==> AppointmentWellFormed(r.value)
    ensures r.Ok? ==> && r.value.id == id
                      && r.value.doctorId == input.doctorId.value
                      && r.value.patientName == Trim(input.patientName.value)
                      && r.value.patientEmail == NormalizeEmail(input.patientEmail.value)
                      && r.value.patientPhone == Trim(input.patientPhone.value)
                      && r.value.date == input.date.value
                      && r.value.time == input.time.value
                      && ConsultationTypeName(r.value.consultationType) == input.consultationType.value
                      && r.value.notes == TrimOption(input.notes)
    ensures r.Ok? ==> (input.status.None? ==> r.value.status == Pending)
                      && (input.status.Some? ==> StatusName(r.value.status) == input.status.value)
  {
    if !AppointmentInputAccepted(input) then Err(AppointmentSchemaErrors(input))
    else
      Ok(Appointment(
        id, input.doctorId.value,
        Trim(input.patientName.value), NormalizeEmail(input.patientEmail.value), Trim(input.patientPhone.value),
        input.date.value, input.time.value,
        ParseConsultationType(input.consultationType.value).value,
        if input.status.Some? then ParseStatus(input.status.value).value else Pending,
        TrimOption(input.notes)))
  }

  /** The individual violations of the appointment schema in `input`. */
  function AppointmentSchemaErrors(input: AppointmentInput): (errs: seq<SchemaError>)
    ensures errs == [] <==> AppointmentInputAccepted(input)
  {
    var a := if input.doctorId.None? then [Required("doctorId")]
             else if IsCanonicalId(input.doctorId.value) then [] else [CastFailed("doctorId")];
    var b := RequiredTrimmed("patientName", input.patientName);
    var c := RequiredTrimmed("patientEmail", input.patientEmail);
    var d := RequiredTrimmed("patientPhone", input.patientPhone);
    var e := if input.date.Some? then [] else [Required("date")];
    var f := if input.time.Some? && input.time.value != [] then [] else [Required("time")];
    var g := if input.consultationType.None? then [Required("consultationType")]
             else if input.consultationType.value == "online" || input.consultationType.value == "offline" then []
             else [NotInEnum("consultationType")];
    var h := if input.status.Some? && ParseStatus(input.status.value).None? then [NotInEnum("status")] else [];
    assert |a + b + c + d + e + f + g + h| == |a| + |b| + |c| + |d| + |e| + |f| + |g| + |h|;
    a + b + c + d + e + f + g + h
  }
}

=== FILE: sorting.dfy ===
/** Ordering of query results: the sort keys the application uses (a number,
    then a string), a stable-enough insertion sort by such a key, reversal for
    descending order, and the duplicate-free ascending listings behind the
    facet endpoints. Ties are left in an unspecified order, as MongoDB leaves
    them. */
module Sorting {
  import opened Text

  /** A sort key: compared by `number` first, then by `text`. Numeric fields
      use `number` only, string fields use `text` only. */
  datatype SortKey = SortKey(number: real, text: string)

  predicate KeyLe(a: SortKey, b: SortKey) {
    a.number < b.number || (a.number == b.number && LexLe(a.text, b.text))
  }

  lemma KeyLeRefl(a: SortKey)
    ensures KeyLe(a, a)
  {
    LexLeRefl(a.text);
  }

  lemma KeyLeTotal(a: SortKey, b: SortKey)
    ensures KeyLe(a, b) || KeyLe(b, a)
  {
    LexLeTotal(a.text, b.text);
  }

  lemma KeyLeTrans(a: SortKey, b: SortKey, c: SortKey)
    requires KeyLe(a, b) && KeyLe(b, c)
    ensures KeyLe(a, c)
  {
    if a.number == b.number == c.number {
      LexLeTrans(a.text, b.text, c.text);
    }
  }

  /** `s` is in ascending key order. */
  predicate SortedBy<T>(s: seq<T>, key: T -> SortKey) {
    forall i, j :: 0 <= i < j < |s| ==> KeyLe(key(s[i]), key(s[j]))
  }

  /** `s` is in descending key order. */
  predicate SortedDescBy<T>(s: seq<T>, key: T -> SortKey) {
    forall i, j :: 0 <= i < j < |s| ==> KeyLe(key(s[j]), key(s[i]))
  }

  /** A key that is at most the first key of a sorted sequence is at most all of them. */
  lemma BelowHead<T>(k: SortKey, s: seq<T>, key: T -> SortKey)
    requires SortedBy(s, key) && |s| > 0 && KeyLe(k, key(s[0]))
    ensures forall j :: 0 <= j < |s| ==> KeyLe(k, key(s[j]))
  {
    forall j | 0 <= j < |s| ensures KeyLe(k, key(s[j])) {
      if j > 0 { KeyLeTrans(k, key(s[0]), key(s[j])); }
    }
  }

  /** A lower bound of every element is a lower bound of every permutation's elements. */
  lemma BelowPermutation<T>(k: SortKey, s: seq<T>, t: seq<T>, key: T -> SortKey)
    requires multiset(s) == multiset(t)
    requires forall j :: 0 <= j < |t| ==> KeyLe(k, key(t[j]))
    ensures forall j :: 0 <= j < |s| ==> KeyLe(k, key(s[j]))
  {
    forall j | 0 <= j < |s| ensures KeyLe(k, key(s[j])) {
      assert s[j] in multiset(t);
      var i :| 0 <= i < |t| && t[i] == s[j];
    }
  }

  lemma SortedCons<T>(x: T, s: seq<T>, key: T -> SortKey)
    requires SortedBy(s, key)
    requires forall j :: 0 <= j < |s| ==> KeyLe(key(x), key(s[j]))
    ensures SortedBy([x] + s, key)
  {
    var r := [x] + s;
    forall i, j | 0 <= i < j < |r| ensures KeyLe(key(r[i]), key(r[j])) {
      if i > 0 { assert r[i] == s[i - 1] && r[j] == s[j - 1]; }
      else { assert r[j] == s[j - 1]; }
    }
  }

  /** Inserts `x` into the sorted `s` after every element with a smaller key. */
  function Insert<T>(x: T, s: seq<T>, key: T -> SortKey): (r: seq<T>)
    requires SortedBy(s, key)
    ensures SortedBy(r, key)
    ensures multiset(r) == multiset(s) + multiset{x}
    ensures |r| == |s| + 1
  {
    if |s| == 0 then [x]
    else if KeyLe(key(x), key(s[0])) then
      BelowHead(key(x), s, key);
      SortedCons(x, s, key);
      [x] + s
    else
      var rest := Insert(x, s[1..], key);
      KeyLeTotal(key(x), key(s[0]));
      assert forall j :: 0 <= j < |s| - 1 ==> KeyLe(key(s[0]), key(s[1..][j])) by {
        forall j | 0 <= j < |s| - 1 ensures KeyLe(key(s[0]), key(s[1..][j])) {
          assert s[1..][j] == s[j + 1];
        }
      }
      var t := s[1..] + [x];
      assert multiset(t) == multiset(s[1..]) + multiset{x};
      assert forall j :: 0 <= j < |t| ==> KeyLe(key(s[0]), key(t[j]));
      BelowPermutation(key(s[0]), rest, t, key);
      SortedCons(s[0], rest, key);
      assert s == [s[0]] + s[1..];
      [s[0]] + rest
  }

  /** Sorts `s` into ascending key order: the result is a permutation of `s`. */
  function SortByKey<T>(s: seq<T>, key: T -> SortKey): (r: seq<T>)
    ensures SortedBy(r, key)
    ensures multiset(r) == multiset(s)
    ensures |r| == |s|
  {
    if |s| == 0 then []
    else
      assert s == [s[0]] + s[1..];
      Insert(s[0], SortByKey(s[1..], key), key)
  }

  /** `s` in reverse order. */
  function Reverse<T>(s: seq<T>): (r: seq<T>)
    ensures |r| == |s|
    ensures forall i :: 0 <= i < |s| ==> r[i] == s[|s| - 1 - i]
    ensures multiset(r) == multiset(s)
  {
    if |s| == 0 then []
    else
      assert s == [s[0]] + s[1..];
      Reverse(s[1..]) + [s[0]]
  }

  /** Reversing an ascending sequence gives a descending one. */
  lemma ReverseSorted<T>(s: seq<T>, key: T -> SortKey)
    requires SortedBy(s, key)
    ensures SortedDescBy(Reverse(s), key)
  {
    var r := Reverse(s);
    forall i, j | 0 <= i < j < |r| ensures KeyLe(key(r[j]), key(r[i])) {
      assert r[i] == s[|s| - 1 - i] && r[j] == s[|s| - 1 - j];
    }
  }

  /** No value occurs twice in `s`. */
  ghost predicate NoDuplicates<T(!new)>(s: seq<T>) {
    forall x :: multiset(s)[x] <= 1
  }

  /** The distinct values of `s`, each once. */
  function Dedup<T(==,!new)>(s: seq<T>): (r: seq<T>)
    ensures forall x :: x in r <==> x in s
    ensures NoDuplicates(r)
  {
    if |s| == 0 then []
    else
      var rest := Dedup(s[1..]);
      assert forall x :: x in s <==> x == s[0] || x in s[1..];
      if s[0] in rest then rest
      else
        assert multiset([s[0]] + rest) == multiset{s[0]} + multiset(rest);
        [s[0]] + rest
  }

  lemma DistinctPositions<T(!new)>(s: seq<T>)
    requires NoDuplicates(s)
    ensures forall i, j :: 0 <= i < j < |s| ==> s[i] != s[j]
  {
    forall i, j | 0 <= i < j < |s| ensures s[i] != s[j] {
      assert s == s[..j] + s[j..];
      assert multiset(s) == multiset(s[..j]) + multiset(s[j..]);
      assert s[i] in multiset(s[..j]);
      assert s[j] in multiset(s[j..]);
      assert multiset(s)[s[i]] == multiset(s[..j])[s[i]] + multiset(s[j..])[s[i]];
      assert multiset(s)[s[j]] == multiset(s[..j])[s[j]] + multiset(s[j..])[s[j]];
      assert multiset(s)[s[i]] <= 1;
    }
  }

  function StringKey(s: string): SortKey {
    SortKey(0.0, s)
  }

  /** `Array.from(new Set(values)).sort()`: every value once, in strictly
      ascending string order. */
  function SortedDistinct(values: seq<string>): (r: seq<string>)
    ensures forall x :: x in r <==> x in values
    ensures forall i, j :: 0 <= i < j < |r| ==> LexLt(r[i], r[j])
  {
    var d := Dedup(values);
    var r := SortByKey(d, StringKey);
    assert forall x :: x in r <==> x in multiset(r);
    assert forall x :: x in d <==> x in multiset(d);
    DistinctPositions(r);
    assert forall i, j :: 0 <= i < j < |r| ==> KeyLe(StringKey(r[i]), StringKey(r[j]));
    r
  }
}

=== FILE: text.dfy ===
/** String helpers with the JavaScript meanings the application relies on:
    whitespace as `String.prototype.trim` and the regular-expression class `\s`
    see it, case folding for the `i` regex flag, `split`/`join` on a single
    separator character, `Number()` on digit strings, `toString`/`padStart`
    for small numbers, and code-point-wise string order. */
module Text {
  import opened Wrappers

  /** The WhiteSpace and LineTerminator code points of ECMAScript, the set that
      both `trim()` and `\s` remove or match. */
  predicate IsSpace(c: char) {
    || c == '\t' || c == '\n' || c == '\U{000B}' || c == '\U{000C}' || c == '\r' || c == ' '
    || c == '\U{00A0}' || c == '\U{1680}' || ('\U{2000}' <= c <= '\U{200A}')
    || c == '\U{2028}' || c == '\U{2029}' || c == '\U{202F}' || c == '\U{205F}'
    || c == '\U{3000}' || c == '\U{FEFF}'
  }

  /** A string with no whitespace at either end. */
  predicate IsTrimmed(s: string) {
    s == [] || (!IsSpace(s[0]) && !IsSpace(s[|s| - 1]))
  }

  predicate AllSpace(s: string) {
    forall i :: 0 <= i < |s| ==> IsSpace(s[i])
  }

  /** A first character of whitespace followed by whitespace is whitespace. */
  lemma LeadingSpace(s: string, n: nat)
    requires 1 <= n <= |s| && IsSpace(s[0]) && AllSpace(s[1..][..n - 1])
    ensures AllSpace(s[..n])
  {
    forall i | 0 <= i < n ensures IsSpace(s[..n][i]) {
      if i > 0 {
        assert s[..n][i] == s[1..][..n - 1][i - 1];
      }
    }
  }

  /** `s` without its leading whitespace. */
  function TrimStart(s: string): (r: string)
    ensures |r| <= |s| && r == s[|s| - |r|..]
    ensures AllSpace(s[..|s| - |r|])
    ensures r == [] || !IsSpace(r[0])
  {
    if |s| > 0 && IsSpace(s[0]) then
      var t := s[1..];
      var r := TrimStart(t);
      assert t[|t| - |r|..] == s[|s| - |r|..];
      LeadingSpace(s, |s| - |r|);
      r
    else s
  }

  /** `s` without its trailing whitespace. */
  function TrimEnd(s: string): (r: string)
    ensures |r| <= |s| && r == s[..|r|]
    ensures AllSpace(s[|r|..])
    ensures r == [] || !IsSpace(r[|r| - 1])
  {
    if |s| > 0 && IsSpace(s[|s| - 1]) then
      var r := TrimEnd(s[..|s| - 1]);
      assert s[|r|..] == s[..|s| - 1][|r|..] + [s[|s| - 1]];
      r
    else s
  }

  /** `r` is the slice of `s` at offset `k` with only whitespace around it. */
  predicate TrimmedAt(s: string, r: string, k: int) {
    0 <= k <= |s| - |r| && r == s[k..k + |r|] && AllSpace(s[..k]) && AllSpace(s[k + |r|..])
  }

  /** What `TrimEnd` leaves of the suffix after a whitespace prefix is a
      slice with only whitespace around it. */
  lemma TrimEndOfSuffix(s: string, k: nat, r: string)
    requires k <= |s| && AllSpace(s[..k]) && r == TrimEnd(s[k..])
    ensures TrimmedAt(s, r, k)
  {
    var a := s[k..];
    assert r == a[..|r|];
    assert a[..|r|] == s[k..k + |r|];
    assert s[k + |r|..] == a[|r|..];
  }

  /** Removing leading then trailing whitespace leaves a slice with only whitespace around it. */
  lemma TrimSlice(s: string)
    ensures TrimmedAt(s, TrimEnd(TrimStart(s)), |s| - |TrimStart(s)|)
  {
    var a := TrimStart(s);
    var k := |s| - |a|;
    assert a == s[k..];
    TrimEndOfSuffix(s, k, TrimEnd(a));
  }

  /** Trailing whitespace removal keeps a non-space first character. */
  lemma TrimEndKeepsStart(a: string)
    requires a == [] || !IsSpace(a[0])
    ensures IsTrimmed(TrimEnd(a))
  {
    var r := TrimEnd(a);
    assert r != [] ==> r[0] == a[..|r|][0];
  }

  /** `String.prototype.trim`: the result is the slice of `s` left after
      removing whitespace from both ends, and it has none at either end. */
  function Trim(s: string): (r: string)
    ensures IsTrimmed(r) && |r| <= |s|
    ensures exists k :: TrimmedAt(s, r, k)
  {
    TrimSlice(s);
    TrimEndKeepsStart(TrimStart(s));
    TrimEnd(TrimStart(s))
  }

  /** A string that is already trimmed is left alone by `trim()`. */
  lemma TrimOfTrimmed(s: string)
    requires IsTrimmed(s)
    ensures Trim(s) == s
  {
  }

  /** `trim()` is idempotent. */
  lemma TrimIdempotent(s: string)
    ensures Trim(Trim(s)) == Trim(s)
  {
    TrimOfTrimmed(Trim(s));
  }

  /** Lower-casing of one character (ASCII letters only). */
  function LowerChar(c: char): (d: char)
    ensures 'A' <= c <= 'Z' ==> 'a' <= d <= 'z'
    ensures !('A' <= c <= 'Z') ==> d == c
  {
    if 'A' <= c <= 'Z' then (c as int + 32) as char else c
  }

  /** `String.prototype.toLowerCase`, restricted to the ASCII letters. */
  function ToLower(s: string): (r: string)
    ensures |r| == |s|
    ensures forall i :: 0 <= i < |s| ==> r[i] == LowerChar(s[i])
    ensures forall i :: 0 <= i < |r| ==> !('A' <= r[i] <= 'Z')
  {
    seq(|s|, i requires 0 <= i < |s| => LowerChar(s[i]))
  }

  /** Lower-casing keeps a trimmed string trimmed. */
  lemma ToLowerKeepsTrimmed(t: string)
    requires IsTrimmed(t)
    ensures IsTrimmed(ToLower(t))
  {
    var r := ToLower(t);
    if r != [] {
      assert r[0] == LowerChar(t[0]) && r[|r| - 1] == LowerChar(t[|t| - 1]);
    }
  }

  /** Lower-casing twice is lower-casing once. */
  lemma ToLowerIdempotent(t: string)
    ensures ToLower(ToLower(t)) == ToLower(t)
  {
    var r := ToLower(t);
    assert forall i :: 0 <= i < |r| ==> LowerChar(r[i]) == r[i];
  }

  /** `p` occurs in `t` as a contiguous substring. */
  predicate IsInfix(p: string, t: string) {
    exists i :: 0 <= i <= |t| - |p| && OccursAt(p, t, i)
  }

  predicate OccursAt(p: string, t: string, i: int) {
    0 <= i <= |t| - |p| && t[i..i + |p|] == p
  }

  /** A MongoDB `{$regex: pattern, $options: 'i'}` match for a pattern free of
      regular-expression metacharacters: a case-insensitive substring test. */
  predicate ContainsIgnoreCase(text: string, pattern: string) {
    IsInfix(ToLower(pattern), ToLower(text))
  }

  /** `s.split(sep)` for a one-character separator. */
  function Split(s: string, sep: char): (parts: seq<string>)
    ensures |parts| >= 1
    ensures forall k :: 0 <= k < |parts| ==> sep !in parts[k]
  {
    if |s| == 0 then [""]
    else
      var rest := Split(s[1..], sep);
      if s[0] == sep then [""] + rest
      else [[s[0]] + rest[0]] + rest[1..]
  }

  /** `parts.join(sep)`. */
  function Join(parts: seq<string>, sep: char): string {
    if |parts| == 0 then ""
    else if |parts| == 1 then parts[0]
    else parts[0] + [sep] + Join(parts[1..], sep)
  }

  /** `items.map(x => x.trim())`. */
  function TrimAll(items: seq<string>): (r: seq<string>)
    ensures |r| == |items|
    ensures forall k :: 0 <= k < |r| ==> r[k] == Trim(items[k]) && IsTrimmed(r[k])
  {
    seq(|items|, k requires 0 <= k < |items| => Trim(items[k]))
  }

  lemma {:induction false} SplitWithoutSeparator(s: string, sep: char)
    requires sep !in s
    ensures Split(s, sep) == [s]
    decreases |s|
  {
    if |s| > 0 {
      SplitWithoutSeparator(s[1..], sep);
      assert [s[0]] + s[1..] == s;
    }
  }

  lemma {:induction false} SplitAfterPiece(a: string, sep: char, b: string)
    requires sep !in a
    ensures Split(a + [sep] + b, sep) == [a] + Split(b, sep)
    decreases |a|
  {
    var s := a + [sep] + b;
    if |a| == 0 {
      assert s[0] == sep && s[1..] == b;
    } else {
      assert s[0] == a[0] && s[1..] == a[1..] + [sep] + b;
      SplitAfterPiece(a[1..], sep, b);
      assert [a[0]] + a[1..] == a;
    }
  }

  /** Splitting a join gives back the parts, provided there is at least one
      part and no part contains the separator. */
  lemma {:induction false} SplitJoin(parts: seq<string>, sep: char)
    requires |parts| >= 1
    requires forall k :: 0 <= k < |parts| ==> sep !in parts[k]
    ensures Split(Join(parts, sep), sep) == parts
    decreases |parts|
  {
    if |parts| == 1 {
      SplitWithoutSeparator(parts[0], sep);
    } else {
      SplitJoin(parts[1..], sep);
      SplitAfterPiece(parts[0], sep, Join(parts[1..], sep));
      assert [parts[0]] + parts[1..] == parts;
    }
  }

  /** Joining the pieces of a split gives back the original string. */
  lemma {:induction false} JoinSplit(s: string, sep: char)
    ensures Join(Split(s, sep), sep) == s
    decreases |s|
  {
    if |s| > 0 {
      var rest := Split(s[1..], sep);
      JoinSplit(s[1..], sep);
      if s[0] == sep {
        assert Split(s, sep) == [""] + rest;
        assert ([""] + rest)[1..] == rest;
        assert s == [sep] + s[1..];
      } else {
        var parts := Split(s, sep);
        assert parts == [[s[0]] + rest[0]] + rest[1..];
        if |rest| == 1 {
          assert parts == [[s[0]] + rest[0]];
        } else {
          assert parts[1..] == rest[1..];
          assert Join(rest, sep) == rest[0] + [sep] + Join(rest[1..], sep);
        }
      }
    }
  }

  predicate IsDigit(c: char) {
    '0' <= c <= '9'
  }

  function DigitChar(d: nat): (c: char)
    requires d < 10
    ensures IsDigit(c) && DigitValue(c) == d
  {
    ('0' as int + d) as char
  }

  function DigitValue(c: char): nat
    requires IsDigit(c)
  {
    c as int - '0' as int
  }

  /** `n.toString()` in base 10. */
  function DecimalString(n: nat): (s: string)
    ensures |s| >= 1
    ensures forall i :: 0 <= i < |s| ==> IsDigit(s[i])
    ensures n < 10 <==> |s| == 1
    ensures 10 <= n < 100 <==> |s| == 2
  {
    if n < 10 then [DigitChar(n)] else DecimalString(n / 10) + [DigitChar(n % 10)]
  }

  /** The value of a non-empty string of decimal digits. */
  function DigitsValue(s: string): nat
    requires forall i :: 0 <= i < |s| ==> IsDigit(s[i])
  {
    if |s| == 0 then 0 else 10 * DigitsValue(s[..|s| - 1]) + DigitValue(s[|s| - 1])
  }

  /** `Number(s)` for the strings this application sends as prices: a
      non-empty string of decimal digits gives its value; every other string
      is treated as NaN. */
  function ParseDecimal(s: string): Option<nat> {
    if |s| > 0 && forall i :: 0 <= i < |s| ==> IsDigit(s[i]) then Some(DigitsValue(s)) else None
  }

  /** `Number(n.toString()) == n`. */
  lemma {:induction false} DecimalRoundTrip(n: nat)
    ensures ParseDecimal(DecimalString(n)) == Some(n)
    decreases n
  {
    var s := DecimalString(n);
    if n >= 10 {
      DecimalRoundTrip(n / 10);
      assert s[..|s| - 1] == DecimalString(n / 10);
      assert DigitValue(s[|s| - 1]) == n % 10;
    } else {
      assert s == [DigitChar(n)];
      assert s[..|s| - 1] == [];
      assert DigitsValue(s) == 10 * DigitsValue([]) + DigitValue(s[0]);
    }
  }

  /** `s.padStart(width, fill)`. */
  function PadStart(s: string, width: nat, fill: char): (r: string)
    ensures |r| == if |s| >= width then |s| else width
    ensures r[|r| - |s|..] == s
    ensures forall i :: 0 <= i < |r| - |s| ==> r[i] == fill
  {
    if |s| >= width then s else seq(width - |s|, _ => fill) + s
  }

  /** Code-point-wise lexicographic order on strings, the order of the default
      `Array.prototype.sort` and of MongoDB's binary string comparison. */
  predicate LexLe(a: string, b: string) {
    |a| == 0 || (|b| > 0 && (a[0] < b[0] || (a[0] == b[0] && LexLe(a[1..], b[1..]))))
  }

  predicate LexLt(a: string, b: string) {
    LexLe(a, b) && a != b
  }

  lemma {:induction false} LexLeRefl(a: string)
    ensures LexLe(a, a)
    decreases |a|
  {
    if |a| > 0 { LexLeRefl(a[1..]); }
  }

  lemma {:induction false} LexLeTotal(a: string, b: string)
    ensures LexLe(a, b) || LexLe(b, a)
    decreases |a|
  {
    if |a| > 0 && |b| > 0 && a[0] == b[0] { LexLeTotal(a[1..], b[1..]); }
  }

  lemma {:induction false} LexLeTrans(a: string, b: string, c: string)
    requires LexLe(a, b) && LexLe(b, c)
    ensures LexLe(a, c)
    decreases |a|
  {
    if |a| > 0 && a[0] == b[0] && b[0] == c[0] { LexLeTrans(a[1..], b[1..], c[1..]); }
  }

  lemma {:induction false} LexLeAntisym(a: string, b: string)
    requires LexLe(a, b) && LexLe(b, a)
    ensures a == b
    decreases |a|
  {
    if |a| > 0 {
      LexLeAntisym(a[1..], b[1..]);
      assert a == [a[0]] + a[1..] && b == [b[0]] + b[1..];
    }
  }
}

=== FILE: validation.dfy ===
/** The request-validation chain that runs before an appointment is created,
    and the route that composes it with the booking. Each validator that
    fails adds one error, in chain order; a field's later validators still
    run after an earlier one fails. The library checks for e-mail addresses
    and ISO 8601 dates, and the date parser, are parameters. */
module Validation {
  import opened Wrappers
  import opened Text
  import opened Calendar
  import opened Models
  import opened Ledger

  /** The request body as it arrives: absent fields are empty strings. */
  datatype RawBooking = RawBooking(
    doctorId: string,
    patientName: string,
    patientEmail: string,
    patientPhone: string,
    date: string,
    time: string,
    consultationType: string,
    notes: Option<string>)

  /** The library functions the chain and the controller call. */
  datatype Library = Library(isEmail: string -> bool, isIsoDate: string -> bool, parseDate: string -> Instant)

  /** One entry of the validation error list. */
  datatype FieldError = FieldError(field: string, message: string)

  const ValidationFailedMessage: string := "Validation failed"

  /** A character the phone pattern admits: a digit, `+`, `-`, whitespace, or a parenthesis. */
  predicate IsPhoneChar(c: char) {
    IsDigit(c) || c == '+' || c == '-' || IsSpace(c) || c == '(' || c == ')'
  }

  /** The phone pattern: one or more admitted characters. */
  predicate IsPhoneNumber(s: string) {
    |s| > 0 && forall i :: 0 <= i < |s| ==> IsPhoneChar(s[i])
  }

  /** One validator: no error when it passes, its message when it fails. */
  function Check(ok: bool, field: string, message: string): (errs: seq<FieldError>)
    ensures ok <==> errs == []
    ensures !ok ==> errs == [FieldError(field, message)]
  {
    if ok then [] else [FieldError(field, message)]
  }

  /** The hexadecimal prefixes `isHexadecimal` admits, in either case. */
  predicate IsHexPrefix(c0: char, c1: char) {
    c0 == '0' && (c1 == 'x' || c1 == 'X' || c1 == 'h' || c1 == 'H')
  }

  /** 24 characters: a hexadecimal prefix, then 22 hexadecimal digits. */
  predicate IsPrefixedHexId(s: string) {
    |s| == 24 && IsHexPrefix(s[0], s[1]) && forall i :: 2 <= i < |s| ==> IsHexDigit(s[i])
  }

  /** `isMongoId` of validator 13 and later: 24 characters that `isHexadecimal`
      accepts, whose pattern admits an optional `0x` or `0h` prefix. */
  predicate IsMongoId(s: string) {
    IsObjectId(s) || IsPrefixedHexId(s)
  }

  /** The validator accepts every id the store's cast accepts, and the
      prefixed ids besides, which the cast refuses. */
  lemma MongoIdBeyondCast(s: string)
    ensures IsObjectId(s) ==> IsMongoId(s)
    ensures IsMongoId(s) && !IsObjectId(s) <==> IsPrefixedHexId(s)
    ensures IsPrefixedHexId(s) ==> CastObjectId(s).None?
  {
  }

  /** A prefixed id passes the doctor-id validators and then fails the cast. */
  lemma PrefixedIdPassesValidation()
    ensures DoctorIdErrors("0x0123456789abcdef012345") == []
    ensures CastObjectId("0x0123456789abcdef012345") == None
  {
    assert IsPrefixedHexId("0x0123456789abcdef012345");
  }

  function DoctorIdErrors(v: string): (errs: seq<FieldError>)
    ensures forall k :: 0 <= k < |errs| ==> errs[k].field == "doctorId"
    ensures errs == [] <==> IsMongoId(v)
  {
    Check(v != "", "doctorId", "Doctor ID is required") + Check(IsMongoId(v), "doctorId", "Invalid Doctor ID")
  }

  /** The name is trimmed between the emptiness test and the length test. */
  function PatientNameErrors(v: string): (errs: seq<FieldError>)
    ensures forall k :: 0 <= k < |errs| ==> errs[k].field == "patientName"
    ensures errs == [] <==> 2 <= |Trim(v)| <= 100
  {
    Check(v != "", "patientName", "Patient name is required")
    + Check(2 <= |Trim(v)| <= 100, "patientName", "Patient name must be between 2 and 100 characters")
  }

  function PatientEmailErrors(lib: Library, v: string): (errs: seq<FieldError>)
    ensures forall k :: 0 <= k < |errs| ==> errs[k].field == "patientEmail"
    ensures errs == [] <==> v != "" && lib.isEmail(v)
  {
    Check(v != "", "patientEmail", "Patient email is required")
    + Check(lib.isEmail(v), "patientEmail", "Please provide a valid email")
  }

  function PatientPhoneErrors(v: string): (errs: seq<FieldError>)
    ensures forall k :: 0 <= k < |errs| ==> errs[k].field == "patientPhone"
    ensures errs == [] <==> IsPhoneNumber(v)
  {
    Check(v != "", "patientPhone", "Patient phone is required")
    + Check(IsPhoneNumber(v), "patientPhone", "Please provide a valid phone number")
  }

  function DateErrors(lib: Library, v: string): (errs: seq<FieldError>)
    ensures forall k :: 0 <= k < |errs| ==> errs[k].field == "date"
    ensures errs == [] <==> v != "" && lib.isIsoDate(v)
  {
    Check(v != "", "date", "Appointment date is required")
    + Check(lib.isIsoDate(v), "date", "Please provide a valid date")
  }

  function TimeErrors(v: string): (errs: seq<FieldError>)
    ensures forall k :: 0 <= k < |errs| ==> errs[k].field == "time"
    ensures errs == [] <==> v != ""
  {
    Check(v != "", "time", "Appointment time is required")
  }

  function ConsultationTypeErrors(v: string): (errs: seq<FieldError>)
    ensures forall k :: 0 <= k < |errs| ==> errs[k].field == "consultationType"
    ensures errs == [] <==> v == "online" || v == "offline"
  {
    Check(v != "", "consultationType", "Consultation type is required")
    + Check(v == "online" || v == "offline", "consultationType", "Consultation type must be online or offline")
  }

  /** What a valid request is, stated without the chain's redundant
      emptiness tests: an id `isMongoId` accepts, a name of 2 to 100 characters once
      trimmed, a non-empty address the e-mail check accepts, a phone number
      of admitted characters, a date the ISO check accepts, a non-empty
      time, and a type of `online` or `offline`. */
  predicate RequestValid(lib: Library, raw: RawBooking) {
    && IsMongoId(raw.doctorId)
    && 2 <= |Trim(raw.patientName)| <= 100
    && raw.patientEmail != "" && lib.isEmail(raw.patientEmail)
    && IsPhoneNumber(raw.patientPhone)
    && raw.date != "" && lib.isIsoDate(raw.date)
    && raw.time != ""
    && (raw.consultationType == "online" || raw.consultationType == "offline")
  }

  /** `validationResult(req)` after the whole chain has run. */
  function ValidationErrors(lib: Library, raw: RawBooking): (errs: seq<FieldError>)
    ensures errs == [] <==> RequestValid(lib, raw)
  {
    DoctorIdErrors(raw.doctorId) + PatientNameErrors(raw.patientName) + PatientEmailErrors(lib, raw.patientEmail)
    + PatientPhoneErrors(raw.patientPhone) + DateErrors(lib, raw.date) + TimeErrors(raw.time)
    + ConsultationTypeErrors(raw.consultationType)
  }

  /** The type error is reported exactly when the type is neither `online` nor `offline`. */
  lemma TypeErrorReported(lib: Library, raw: RawBooking)
    ensures (FieldError("consultationType", "Consultation type must be online or offline") in ValidationErrors(lib, raw))
              <==> raw.consultationType != "online" && raw.consultationType != "offline"
  {
    var x := FieldError("consultationType", "Consultation type must be online or offline");
    var a, b, c := DoctorIdErrors(raw.doctorId), PatientNameErrors(raw.patientName), PatientEmailErrors(lib, raw.patientEmail);
    var d, e, f := PatientPhoneErrors(raw.patientPhone), DateErrors(lib, raw.date), TimeErrors(raw.time);
    var g := ConsultationTypeErrors(raw.consultationType);
    InSevenParts(x, a, b, c, d, e, f, g);
    OtherFieldAbsent(x, a, "doctorId");
    OtherFieldAbsent(x, b, "patientName");
    OtherFieldAbsent(x, c, "patientEmail");
    OtherFieldAbsent(x, d, "patientPhone");
    OtherFieldAbsent(x, e, "date");
    OtherFieldAbsent(x, f, "time");
    TypeMessageIn(raw.consultationType);
  }

  /** The name-length error is reported exactly when the trimmed name is shorter than 2 or longer than 100 characters. */
  lemma NameLengthErrorReported(lib: Library, raw: RawBooking)
    ensures (FieldError("patientName", "Patient name must be between 2 and 100 characters") in ValidationErrors(lib, raw))
              <==> !(2 <= |Trim(raw.patientName)| <= 100)
  {
    var x := FieldError("patientName", "Patient name must be between 2 and 100 characters");
    var a, b, c := DoctorIdErrors(raw.doctorId), PatientNameErrors(raw.patientName), PatientEmailErrors(lib, raw.patientEmail);
    var d, e, f := PatientPhoneErrors(raw.patientPhone), DateErrors(lib, raw.date), TimeErrors(raw.time);
    var g := ConsultationTypeErrors(raw.consultationType);
    InSevenParts(x, a, b, c, d, e, f, g);
    OtherFieldAbsent(x, a, "doctorId");
    NameLengthMessageIn(raw.patientName);
    OtherFieldAbsent(x, c, "patientEmail");
    OtherFieldAbsent(x, d, "patientPhone");
    OtherFieldAbsent(x, e, "date");
    OtherFieldAbsent(x, f, "time");
    OtherFieldAbsent(x, g, "consultationType");
  }

  /** The phone-pattern error is reported exactly when the phone does not match the pattern. */
  lemma PhoneErrorReported(lib: Library, raw: RawBooking)
    ensures (FieldError("patientPhone", "Please provide a valid phone number") in ValidationErrors(lib, raw))
              <==> !IsPhoneNumber(raw.patientPhone)
  {
    var x := FieldError("patientPhone", "Please provide a valid phone number");
    var a, b, c := DoctorIdErrors(raw.doctorId), PatientNameErrors(raw.patientName), PatientEmailErrors(lib, raw.patientEmail);
    var d, e, f := PatientPhoneErrors(raw.patientPhone), DateErrors(lib, raw.date), TimeErrors(raw.time);
    var g := ConsultationTypeErrors(raw.consultationType);
    InSevenParts(x, a, b, c, d, e, f, g);
    OtherFieldAbsent(x, a, "doctorId");
    OtherFieldAbsent(x, b, "patientName");
    OtherFieldAbsent(x, c, "patientEmail");
    PhoneMessageIn(raw.patientPhone);
    OtherFieldAbsent(x, e, "date");
    OtherFieldAbsent(x, f, "time");
    OtherFieldAbsent(x, g, "consultationType");
  }

  /** A missing doctor id fails both of its validators, so it is reported twice. */
  lemma EmptyDoctorIdReportedTwice(lib: Library, raw: RawBooking)
    requires raw.doctorId == ""
    ensures |ValidationErrors(lib, raw)| >= 2
    ensures ValidationErrors(lib, raw)[0] == FieldError("doctorId", "Doctor ID is required")
    ensures ValidationErrors(lib, raw)[1] == FieldError("doctorId", "Invalid Doctor ID")
  {
    var a := DoctorIdErrors(raw.doctorId);
    assert a == [FieldError("doctorId", "Doctor ID is required"), FieldError("doctorId", "Invalid Doctor ID")];
    PrefixOfSeven(a, PatientNameErrors(raw.patientName), PatientEmailErrors(lib, raw.patientEmail),
                  PatientPhoneErrors(raw.patientPhone), DateErrors(lib, raw.date), TimeErrors(raw.time),
                  ConsultationTypeErrors(raw.consultationType));
  }

  /** A list whose entries all name one field holds no entry for another field. */
  lemma OtherFieldAbsent(x: FieldError, errs: seq<FieldError>, field: string)
    requires forall k :: 0 <= k < |errs| ==> errs[k].field == field
    requires x.field != field
    ensures x !in errs
  {
  }

  lemma NameLengthMessageIn(v: string)
    ensures (FieldError("patientName", "Patient name must be between 2 and 100 characters") in PatientNameErrors(v))
              <==> !(2 <= |Trim(v)| <= 100)
  {
  }

  lemma PhoneMessageIn(v: string)
    ensures (FieldError("patientPhone", "Please provide a valid phone number") in PatientPhoneErrors(v))
              <==> !IsPhoneNumber(v)
  {
  }

  lemma TypeMessageIn(v: string)
    ensures (FieldError("consultationType", "Consultation type must be online or offline") in ConsultationTypeErrors(v))
              <==> v != "online" && v != "offline"
  {
  }

  /** An entry is in the concatenation of the seven per-field lists exactly when it is in one of them. */
  lemma InSevenParts(x: FieldError, a: seq<FieldError>, b: seq<FieldError>, c: seq<FieldError>, d: seq<FieldError>,
                     e: seq<FieldError>, f: seq<FieldError>, g: seq<FieldError>)
    ensures (x in a + b + c + d + e + f + g)
              <==> x in a || x in b || x in c || x in d || x in e || x in f || x in g
  {
  }

  /** The first two entries of the seven per-field lists together are those of the first list. */
  lemma PrefixOfSeven(a: seq<FieldError>, b: seq<FieldError>, c: seq<FieldError>, d: seq<FieldError>,
                      e: seq<FieldError>, f: seq<FieldError>, g: seq<FieldError>)
    requires |a| >= 2
    ensures |a + b + c + d + e + f + g| >= 2
    ensures (a + b + c + d + e + f + g)[0] == a[0] && (a + b + c + d + e + f + g)[1] == a[1]
  {
    assert a + b + c + d + e + f + g == a + (b + c + d + e + f + g);
  }

  function Messages(errs: seq<FieldError>): (r: seq<string>)
    ensures |r| == |errs| && forall k :: 0 <= k < |r| ==> r[k] == errs[k].message
  {
    seq(|errs|, k requires 0 <= k < |errs| => errs[k].message)
  }

  /** The request the controller sees: the chain has trimmed the name, and the date is parsed. */
  function ToBookingRequest(lib: Library, raw: RawBooking): BookingRequest {
    BookingRequest(raw.doctorId, Trim(raw.patientName), raw.patientEmail, raw.patientPhone,
                   lib.parseDate(raw.date), raw.time, raw.consultationType, raw.notes)
  }

  /** `POST /api/appointments`: the validation chain, then `createAppointment`. */
  function CreateAppointment(lib: Library, directory: seq<Doctor>, ledger: seq<Appointment>, raw: RawBooking, newId: ObjectId)
    : (r: Step<Appointment>)
    requires IsCanonicalId(newId)
    ensures !RequestValid(lib, raw) ==>
              r == Step(Err(ValidationFailed(Messages(ValidationErrors(lib, raw)))), ledger)
    ensures RequestValid(lib, raw) ==> !(r.result.Err? && r.result.error.ValidationFailed?)
    ensures r.result.Err? ==> r.ledger == ledger
    // a request is booked exactly when it is valid and every check of the controller passes
    ensures r.result.Ok? <==> RequestValid(lib, raw) && Bookable(directory, ledger, ToBookingRequest(lib, raw))
    // a valid id the store cannot cast fails the doctor lookup
    ensures RequestValid(lib, raw) && !IsObjectId(raw.doctorId) ==> r.result == Err(StoreFailure(CreateFailed))
    // past validation, an unknown doctor, a type not offered and a held slot are reported as the controller does
    ensures RequestValid(lib, raw) && IsObjectId(raw.doctorId) ==>
              (r.result == Err(NotFound(DoctorNotFound)) <==> !HasDoctor(directory, ToLower(raw.doctorId)))
    ensures forall d :: RequestValid(lib, raw) && IsObjectId(raw.doctorId)
                        && FindDoctor(directory, ToLower(raw.doctorId)) == Some(d) ==>
              (!TypeAccepted(d.consultationType, raw.consultationType) <==>
               r.result == Err(InvalidRequest(OnlyOffers(d.consultationType))))
    ensures forall d :: RequestValid(lib, raw) && IsObjectId(raw.doctorId)
                        && FindDoctor(directory, ToLower(raw.doctorId)) == Some(d)
                        && TypeAccepted(d.consultationType, raw.consultationType) ==>
              (SlotHeld(ledger, ToLower(raw.doctorId), lib.parseDate(raw.date), raw.time)
               <==> r.result == Err(Conflict(SlotTaken)))
    ensures r.result.Ok? ==> r.ledger == ledger + [r.result.value]
  {
    // `ValidationErrors` is empty exactly when the request is valid
    if !RequestValid(lib, raw) then Step(Err(ValidationFailed(Messages(ValidationErrors(lib, raw)))), ledger)
    else Book(directory, ledger, ToBookingRequest(lib, raw), newId)
  }

  /** A created appointment is appended to the ledger, pending, of a single
      consultation type, with the parsed date, the notes trimmed and a name of
      2 to 100 characters. */
  lemma CreatedAppointment(lib: Library, directory: seq<Doctor>, ledger: seq<Appointment>, raw: RawBooking, newId: ObjectId)
    requires IsCanonicalId(newId)
    requires CreateAppointment(lib, directory, ledger, raw, newId).result.Ok?
    ensures var r := CreateAppointment(lib, directory, ledger, raw, newId);
            && r.ledger == ledger + [r.result.value]
            && 2 <= |r.result.value.patientName| <= 100
            && r.result.value.consultationType != Both
            && r.result.value.date == lib.parseDate(raw.date)
            && r.result.value.notes == TrimOption(raw.notes)
            && r.result.value.status == Pending
  {
    var r := CreateAppointment(lib, directory, ledger, raw, newId);
    assert RequestValid(lib, raw);
    var req := ToBookingRequest(lib, raw);
    assert ValidationErrors(lib, raw) == [];
    assert r == Book(directory, ledger, req, newId);
    BookSuccess(directory, ledger, req, newId);
    TrimIdempotent(raw.patientName);
  }

  /** A valid request whose id the store can cast, for a stored doctor who
      offers the requested type, at a free slot, is booked, provided its
      e-mail and phone do not trim to nothing (the chain's checks leave both
      possible). */
  lemma ValidRequestBooked(lib: Library, directory: seq<Doctor>, ledger: seq<Appointment>, raw: RawBooking, newId: ObjectId)
    requires IsCanonicalId(newId)
    requires RequestValid(lib, raw) && IsObjectId(raw.doctorId)
    requires HasDoctor(directory, ToLower(raw.doctorId))
    requires TypeAccepted(FindDoctor(directory, ToLower(raw.doctorId)).value.consultationType, raw.consultationType)
    requires !SlotHeld(ledger, ToLower(raw.doctorId), lib.parseDate(raw.date), raw.time)
    requires Trim(raw.patientEmail) != [] && Trim(raw.patientPhone) != []
    ensures var r := CreateAppointment(lib, directory, ledger, raw, newId);
            r.result.Ok? && r.ledger == ledger + [r.result.value]
  {
    var req := ToBookingRequest(lib, raw);
    LongNameNotBlank(raw.patientName);
    assert FieldsAccepted(req);
    assert Bookable(directory, ledger, req);
  }

  /** A name the length check accepts does not trim to nothing when the schema trims it again. */
  lemma LongNameNotBlank(name: string)
    requires 2 <= |Trim(name)|
    ensures Trim(Trim(name)) != []
  {
    TrimIdempotent(name);
  }

  /** A request for `both` never reaches the ledger, even for a doctor offering both. */
  lemma BothTypeRejected(lib: Library, directory: seq<Doctor>, ledger: seq<Appointment>, raw: RawBooking, newId: ObjectId)
    requires IsCanonicalId(newId) && raw.consultationType == "both"
    ensures CreateAppointment(lib, directory, ledger, raw, newId).result.Err?
    ensures CreateAppointment(lib, directory, ledger, raw, newId).result.error.ValidationFailed?
    ensures CreateAppointment(lib, directory, ledger, raw, newId).ledger == ledger
  {
    assert raw.consultationType != "online" && raw.consultationType != "offline";
    assert !RequestValid(lib, raw);
  }

  /** Trimming a string of whitespace leaves nothing. */
  lemma TrimAllSpace(s: string)
    requires AllSpace(s)
    ensures Trim(s) == ""
  {
  }

  /** A phone number made only of whitespace passes the pattern, but the
      record's trimmed phone is then empty, so the booking still fails, and
      not as a validation failure. */
  lemma BlankPhonePassesValidation(lib: Library, directory: seq<Doctor>, ledger: seq<Appointment>, raw: RawBooking, newId: ObjectId)
    requires IsCanonicalId(newId)
    requires RequestValid(lib, raw) && AllSpace(raw.patientPhone)
    ensures ValidationErrors(lib, raw) == []
    ensures CreateAppointment(lib, directory, ledger, raw, newId).result.Err?
    ensures !CreateAppointment(lib, directory, ledger, raw, newId).result.error.ValidationFailed?
  {
    TrimAllSpace(raw.patientPhone);
    var req := ToBookingRequest(lib, raw);
    assert CreateAppointment(lib, directory, ledger, raw, newId) == Book(directory, ledger, req, newId);
    BlankPhoneNotBooked(directory, ledger, req, newId);
  }
}

=== FILE: wrappers.dfy ===
/** Failure-carrying values shared by every other module. */
module Wrappers {

  /** An optional value: a field that may be absent from a record or request. */
  datatype Option<+T> = None | Some(value: T)

  /** The outcome of an operation that either produces a value or fails. */
  datatype Result<+T, +E> = Ok(value: T) | Err(error: E)
}
